=== FILE: README.md ===
# Dataplex aspect attachment, modelled in Dafny

Two command-line scripts attach Dataplex *aspects* to catalog entries for
BigQuery resources. `aspect_attach_column.py` walks a Dataplex lake (zones,
then the assets of each zone, then the tables of each BigQuery dataset asset,
then optionally each column) and attaches to assets, tables or columns.
`aspect_attach.py` attaches to one asset entry or to the tables of one dataset
of the configured project. Both scripts first resolve the `--aspects`
selection against an aspect document (`aspects.json`):

- split on commas and strip each piece;
- expand group names through the document's `"groups"` table;
- de-duplicate in first-occurrence order (`dict.fromkeys`);
- reject the run when no token is left or when an id is not a key of the
  document other than `"groups"`.

Each attach call is a PATCH to `{BASE_URL}/{entry_name}`. The entry name is
the entries prefix `projects/{P}/locations/{L}/entryGroups/{G}/entries/`
followed by `urllib.parse.quote(entry_id)`. The body holds `name`, `aspects`
(one `{P}.{L}.{aspect}` key per resolved id, holding `{"data": template}`)
and, for a column, a `target`. A call succeeds exactly when the status is
200. A run that is not stopped early fails exactly when no call succeeded.

The model is a set of pure functions over immutable values:

| module | models |
|---|---|
| `Text` | Python's `str.split(sep)`, `"sep".join`, `str.strip`, `str.replace` |
| `Sequences` | `list(dict.fromkeys(xs))` and first-occurrence order |
| `PercentEncoding` | UTF-8 (section 3 of RFC 3629) and `quote(s)` with `safe='/'`, which escapes every byte outside the unreserved set of section 2.3 of RFC 3986, and `/`, as `%XX` (section 2.1) |
| `Json` | JSON objects as ordered member lists with dictionary lookup |
| `EntryNames` | entry ids, entry names and the parser of an asset's `resourceSpec.resource` |
| `AspectResolver` | the selection pipeline |
| `Attachment` | the payload and the PATCH call |
| `Aggregation` | the success count and the exit verdict |
| `HierarchyWalk` | the lake walk of `aspect_attach_column.py` |
| `ColumnScript` | a whole run of `aspect_attach_column.py` |
| `FlatScript` | a whole run of `aspect_attach.py` |

The scripts' listings are inputs to the model: the zones, the assets of each
zone, and the tables and schemas BigQuery returns. So are the response
statuses. A run's result is an `Outcome`: the calls issued, in order, and what
stopped the run early, if anything. `Verdict` turns an outcome and one status
per call into the exit.

Some behaviour of the code is easy to miss. The model keeps it as the code
has it:

- A failing zone or asset listing ends the run. `raise_for_status` is never
  caught, so the zone is not skipped.
- The column kind without `--column` fails only when the walk reaches the
  first table that passes the filters, not before the walk.
  `ColumnCheckedLazily` states this.
- `str.replace` removes the `//bigquery.googleapis.com/` prefix wherever it
  occurs, not only at the start.
- The `projects` and `datasets` labels of a resource path are not checked
  (`ParseFourSegments`).
- An asset without `resourceSpec` that passes `--asset` ends the run. This is
  the `KeyError` at `asset['resourceSpec']`.
- In the table kind with `--include_columns`, a failing `get_table` ends the
  run after the table's own call. The call is outside any `try`.
- The column kind does not require `--table`. Without it, the column is
  targeted in every listed table that passes the other filters.
- The asset kind attaches to every asset whose resource parses, whatever
  the asset's type (`AssetKindIgnoresType`).
- `column_name=""` adds no `target`, because Python treats the empty string as
  false.
- `aspect_attach.py` names the asset kind's entry `quote(args.asset)`. That is
  the raw asset name, not a BigQuery dataset entry id
  (`AssetKindSingleCall`).

## Model

| member | source | states |
|---|---|---|
| Text.Split | aspect_attach_column.py:37 | a split always has at least one piece, and no piece contains the separator |
| Text.JoinSplit | aspect_attach_column.py:37 | joining the pieces with the separator gives back the original string: splitting loses nothing |
| Text.SplitJoin | aspect_attach_column.py:135 | splitting a join of separator-free pieces gives back exactly those pieces |
| Text.SplitAfterPiece | aspect_attach_column.py:135 | a separator-free head in front of the first separator is the first piece, and the rest is split on its own |
| Text.LastPieceStep | aspect_attach_column.py:125 | the last piece of a string is the last piece of what follows its first separator |
| Text.LastPieceIsSuffix | aspect_attach_column.py:125 | `s.split(sep)[-1]` is a suffix of `s`, and the character in front of it, if any, is the separator |
| Text.LastSegment | aspect_attach_column.py:125 | `name.split('/')[-1]` is a slash-free suffix of the name, preceded by `/` unless it is the whole name |
| Text.StripLeft | aspect_attach_column.py:37 | `lstrip` keeps a suffix, everything it removes is whitespace, and what is left does not start with whitespace |
| Text.StripRight | aspect_attach_column.py:37 | `rstrip` keeps a prefix, everything it removes is whitespace, and what is left does not end with whitespace |
| Text.Strip | aspect_attach_column.py:37 | `strip` introduces no character, and a non-empty result has no whitespace at either end |
| Text.StripUnpadded | aspect_attach_column.py:37 | a non-empty string with no whitespace at either end strips to itself |
| Text.StripLeftEmptyIff | aspect_attach_column.py:37 | `lstrip` gives the empty string exactly for an all-whitespace string |
| Text.StripRightEmptyIff | aspect_attach_column.py:37 | `rstrip` gives the empty string exactly for an all-whitespace string |
| Text.StripEmptyIffAllSpace | aspect_attach_column.py:37 | `strip` gives the empty string exactly for an all-whitespace string, the empty string included |
| Text.ReplaceAbsent | aspect_attach_column.py:135 | `Text.Replace`, Python's `str.replace`, leaves a string without an occurrence of the pattern unchanged |
| Text.ReplaceLeading | aspect_attach_column.py:135 | in `Text.Replace`, a leading occurrence is replaced, and replacement goes on in the rest |
| Sequences.Dedup | aspect_attach_column.py:48 | `dict.fromkeys` keeps exactly the elements of the list, each once, and never lengthens it |
| Sequences.DedupOrder | aspect_attach_column.py:48 | the kept elements are in the order of their first occurrence |
| Sequences.SortedByKeyUnique | aspect_attach_column.py:48 | two duplicate-free lists with the same elements, both in first-occurrence order, are equal |
| Sequences.OrderThrough | aspect_attach_column.py:48-50 | a list in first-occurrence order against a second list, itself in first-occurrence order against a third, is in first-occurrence order against the third |
| Sequences.DedupUnique | aspect_attach_column.py:48 | the de-duplicated list is the only duplicate-free list of the same elements in first-occurrence order |
| PercentEncoding.Utf8Char | aspect_attach_column.py:144 | a character encodes to one to four UTF-8 bytes |
| PercentEncoding.DecodeFirst | aspect_attach_column.py:144 | decoding the leading character consumes between one byte and the whole input |
| PercentEncoding.DecodeEncodedChar | aspect_attach_column.py:144 | decoding the front of a character's encoding gives back the character and its byte count |
| PercentEncoding.Utf8RoundTrip | aspect_attach_column.py:144 | UTF-8 decoding undoes UTF-8 encoding |
| PercentEncoding.Utf8EncodeAppend | aspect_attach_column.py:144 | UTF-8 encoding of a concatenation is the concatenation of the encodings |
| PercentEncoding.HexDigit | aspect_attach_column.py:144 | escapes use upper-case hexadecimal digits |
| PercentEncoding.QuoteByte | aspect_attach_column.py:144 | a byte is kept as one character or escaped as three |
| PercentEncoding.PercentEncode | aspect_attach_column.py:144 | escaping produces only unreserved characters, `/`, `%` and upper-case hex digits |
| PercentEncoding.Quote | aspect_attach_column.py:144 | `quote` produces only unreserved characters, `/`, `%` and upper-case hex digits |
| PercentEncoding.DecodeQuotedByte | aspect_attach_column.py:144 | decoding the escape of one byte yields that byte in front of the decoding of the rest |
| PercentEncoding.PercentRoundTrip | aspect_attach_column.py:144 | percent-decoding undoes percent-encoding of any bytes |
| PercentEncoding.QuoteRoundTrip | aspect_attach_column.py:144 | unquoting undoes `quote` for every string |
| PercentEncoding.QuoteInjective | aspect_attach_column.py:144 | distinct strings quote to distinct strings |
| PercentEncoding.PercentEncodeEscapes | aspect_attach_column.py:144 | every `%` the escaping writes is followed by two upper-case hex digits, so `%2f` is never produced |
| PercentEncoding.QuoteEscapes | aspect_attach_column.py:144 | every escape in a quoted entry id is a `%` and two upper-case hex digits |
| PercentEncoding.PercentEncodeAppend | aspect_attach_column.py:162 | escaping a concatenation escapes the parts separately |
| PercentEncoding.QuoteAppend | aspect_attach_column.py:162 | quoting a concatenation quotes the parts separately |
| PercentEncoding.QuoteSafeIdentity | aspect_attach_column.py:162 | a string of unreserved characters and `/` is left unchanged |
| Json.Get | aspect_attach_column.py:72 | lookup finds a value exactly when the key is a member name, and the value found belongs to a member with that key |
| EntryNames.EntryName | aspect_attach_column.py:144 | the entry name starts with the entries prefix `EntriesPrefix`, `projects/{P}/locations/{L}/entryGroups/{G}/entries/`, its quoted part holds only characters `quote` produces, and stripping the prefix and unquoting gives back the entry id |
| EntryNames.EntryNameInjective | aspect_attach_column.py:162 | different entry ids never share an entry name |
| EntryNames.QuoteAroundSafe | aspect_attach_column.py:162 | quoting passes unchanged literals through and quotes each component between them on its own |
| EntryNames.SafeLiteral | aspect_attach_column.py:161 | the literal parts of an entry id, `/` included, are not escaped |
| EntryNames.QuoteTableEntryId | aspect_attach_column.py:161-162 | the table entry id `TableEntryId` is the dataset entry id `DatasetEntryId`, `bigquery.googleapis.com/projects/{p}/datasets/{d}`, followed by `/tables/{t}`. Quoting it quotes project, dataset and table separately and keeps the literal parts |
| EntryNames.SafeTableEntryName | aspect_attach_column.py:161-162 | with components of unreserved characters, the entry name is the plain concatenation of prefix and entry id |
| EntryNames.DeployedTableEntryName | aspect_attach_column.py:58-60 | with the scripts' hard-coded project, location and entry group, a table in that project with unreserved dataset and table names gets the unescaped entry name `projects/clean-aleph-411709/locations/us-central1/entryGroups/@bigquery/entries/bigquery.googleapis.com/projects/clean-aleph-411709/datasets/{d}/tables/{t}` |
| EntryNames.ParseResource | aspect_attach_column.py:135-139 | a parsed project and dataset are each slash-free |
| EntryNames.SplitCount | aspect_attach_column.py:135-136 | a split has one more piece than the string has separators |
| EntryNames.ParseResourceSucceedsIff | aspect_attach_column.py:135-137 | parsing succeeds exactly when three `/` remain once the service prefix is removed |
| EntryNames.ParseEmptyResource | aspect_attach_column.py:135-137 | the empty resource path does not parse |
| EntryNames.ParseFourSegments | aspect_attach_column.py:135-139 | any `//bigquery.googleapis.com/{a}/{p}/{b}/{d}` with non-empty slash-free segments parses to `(p, d)`, whatever the labels `a` and `b` |
| EntryNames.PrefixRemoved | aspect_attach_column.py:135 | `replace` removes a leading service prefix and nothing else from a path without two adjacent slashes |
| EntryNames.ParseResourceSound | aspect_attach_column.py:135-139 | a successful parse means the path is `{a}/{p}/{b}/{d}` once the service prefix is removed, and it gives `(p, d)` |
| EntryNames.ParseDatasetResource | aspect_attach_column.py:135-139 | the canonical `//bigquery.googleapis.com/projects/{p}/datasets/{d}` parses to `(p, d)` |
| AspectResolver.NonBlankMembers | aspect_attach_column.py:37 | filtering keeps exactly the non-empty strings |
| AspectResolver.StrippedTokens | aspect_attach_column.py:37 | there are never more tokens than pieces |
| AspectResolver.StrippedTokensMembers | aspect_attach_column.py:37 | the tokens are exactly the non-empty stripped pieces: none is lost and none is invented |
| AspectResolver.StrippedTokensAppend | aspect_attach_column.py:37 | tokenising works piece by piece, so the tokens keep the order of their pieces |
| AspectResolver.StrippedTokensEmptyIff | aspect_attach_column.py:37-38 | no token is left exactly when every piece strips to nothing |
| AspectResolver.StrippedTokensShape | aspect_attach_column.py:37 | every token is non-empty, has no whitespace at either end, and holds no character that no piece holds |
| AspectResolver.Tokens | aspect_attach_column.py:37 | every token of the selection is non-empty, unpadded and comma-free |
| AspectResolver.BlankPieces | aspect_attach_column.py:37 | every comma-separated piece is blank exactly when the selection holds only commas and whitespace |
| AspectResolver.NoTokensIff | aspect_attach_column.py:37-40 | the selection is rejected as empty exactly when it holds only commas and whitespace, the empty string included |
| AspectResolver.Expand | aspect_attach_column.py:42-47 | an id is in the expansion exactly when some token contributes it: a group token its members, any other token itself |
| AspectResolver.ExpandAppend | aspect_attach_column.py:42-47 | expansion works token by token, so earlier tokens' ids come first |
| AspectResolver.Undefined | aspect_attach_column.py:50 | the undefined ids are exactly the resolved ids missing from the catalog, and never more than the resolved ids |
| AspectResolver.UndefinedNoDup | aspect_attach_column.py:50-52 | on a duplicate-free list each undefined id is reported once |
| AspectResolver.UndefinedInOrder | aspect_attach_column.py:50-52 | undefined ids are reported in list order |
| AspectResolver.Resolve | aspect_attach_column.py:33-55 | the run proceeds exactly when some token is left and every expanded id is a catalog key other than `"groups"`. The ids are then duplicate-free, exactly the expanded ids, and in first-occurrence order. Otherwise the error is the empty selection, or the non-empty, duplicate-free list of exactly the undefined ids, in the order of the expanded selection. The known ids are `KnownAspects`, the document's keys other than `"groups"`. `aspect_attach.py:28-54` is the same pipeline |
| AspectResolver.SplitTwo | aspect_attach_column.py:37 | `"a,b"` with comma-free `a` and `b` splits into `[a, b]` |
| AspectResolver.UnpaddedPiecesKept | aspect_attach_column.py:37 | a list of pieces that are all non-empty with no whitespace at either end comes through tokenising unchanged: nothing altered, nothing dropped, the same order |
| AspectResolver.NonBlankKeeps | aspect_attach_column.py:37 | filtering a list with no empty string keeps it as it is |
| AspectResolver.TwoTokens | aspect_attach_column.py:37 | `"a,b"` with unpadded comma-free `a` and `b` gives the tokens `[a, b]` |
| AspectResolver.DedupRepeatFirst | aspect_attach_column.py:48 | `[x, y, x]` de-duplicates to `[x, y]` |
| AspectResolver.ExpandGroupThenMember | aspect_attach_column.py:42-47 | a group `g = [x, y]` followed by the literal `x` expands to `[x, y, x]` |
| AspectResolver.NoneUndefinedIff | aspect_attach_column.py:50 | for every list of ids, none is reported undefined exactly when every id is in the catalog |
| AspectResolver.GroupThenLiteral | aspect_attach_column.py:37-55 | `"g,x"` with `g = [x, y]` resolves to `[x, y]`: every member once, in the group's order |
| Attachment.AspectKeyInjective | aspect_attach_column.py:69 | the aspect id can be read back from its full name `AspectKey`, `{P}.{L}.{a}` |
| Attachment.AspectKeyDistinct | aspect_attach_column.py:69 | distinct ids have distinct full names |
| Attachment.AspectsPayload | aspect_attach_column.py:67-70 | one member per resolved id, in order, keyed by the id's full name; looking up a resolved id's full name gives `{"data": template}` with that aspect's catalog template |
| Attachment.AspectsPayloadKeysDistinct | aspect_attach_column.py:67-70 | duplicate-free ids give a payload without repeated keys, as the Python dict has |
| Attachment.Payload | aspect_attach_column.py:72-74 | the body names the entry, carries the aspects payload, and has a `target` exactly for a non-empty column name, namely the `COLUMN` target of that name. The body has no other member: its member names are exactly `name`, `aspects` and, for a given column, `target`, in that order |
| Attachment.PayloadDetermined | aspect_attach_column.py:72-74 | any body with exactly those member names, holding those values, is the payload itself |
| Attachment.AttachCall | aspect_attach_column.py:72-76 | the URL is the base URL, `/`, and then exactly the given entry name, which the body carries as `name`. The body carries the aspects payload. `target` is present exactly for a non-empty column, and it is then that column's `COLUMN` target. The body has no member besides these |
| Aggregation.Successes | aspect_attach_column.py:77-79 | the count never exceeds the number of calls, and it is zero exactly when no status is 200 |
| Aggregation.TallySuccesses | aspect_attach.py:122-127 | the loop's `success_count` equals the number of 200 responses |
| Aggregation.SuccessesAppend | aspect_attach_column.py:119-184 | the counts of consecutive runs of calls add up |
| Aggregation.SuccessesAreIndices | aspect_attach_column.py:77-79 | the count is the number of positions holding status 200 |
| Aggregation.ConcludeStatuses | aspect_attach_column.py:186-190 | with `Conclude`, the `success_count == 0` test, the run fails exactly when no status is 200, and otherwise reports the number of 200 responses, at most one per call |
| Aggregation.PartialFailure | aspect_attach_column.py:186-190 | statuses `[200, 500, 200]` succeed, reporting 2 |
| Aggregation.Verdict | aspect_attach_column.py:186-190 | a run succeeds exactly when nothing stopped it and some status is 200, and it then reports the number of 200 responses |
| HierarchyWalk.Then | aspect_attach_column.py:119-184 | a stopped first part ends the walk as it is. Otherwise the second part's targets follow the first's, and the second part's stop is the stop |
| HierarchyWalk.ThenAssociative | aspect_attach_column.py:119-124 | nesting the loops does not matter for the targets or the stop |
| HierarchyWalk.ColumnTargets | aspect_attach_column.py:172-175 | one column target per schema field, in schema order |
| HierarchyWalk.WalkTable | aspect_attach_column.py:157-184 | a table failing `--table` yields nothing. The column kind yields exactly the `--column` target, or stops with nothing attached when `--column` is missing. The table kind yields the table and then, with `--include_columns`, each schema field in order. When `get_table` fails it stops right after the table itself. It stops in no other case, and every target fits the scope |
| HierarchyWalk.WalkTables | aspect_attach_column.py:157-184 | in the column kind only a missing `--column` stops the walk of a dataset's tables, with nothing attached. In the table kind only a failing `get_table` under `--include_columns` stops it. Every target comes from a listed table and fits the scope |
| HierarchyWalk.WalkAsset | aspect_attach_column.py:124-155 | an asset failing `--asset` is skipped. One without `resourceSpec` is fatal. One whose resource does not parse is skipped. Table and column kinds skip non-BigQuery-dataset assets and datasets BigQuery does not find. An asset that passes `--asset` and parses yields exactly its dataset target in the asset kind. In the other kinds it yields exactly the walk of its listed tables when it is a BigQuery dataset that BigQuery finds. Only a failing `get_table` stops it after targets, and every target is admissible for the asset |
| HierarchyWalk.WalkAssets | aspect_attach_column.py:124 | every target comes from one of the zone's assets and is admissible for it |
| HierarchyWalk.WalkZone | aspect_attach_column.py:120-122 | a failed asset listing is fatal; every target comes from a listed asset |
| HierarchyWalk.WalkZones | aspect_attach_column.py:119 | every target comes from an asset of a zone whose listing succeeded |
| HierarchyWalk.WalkLake | aspect_attach_column.py:114-117 | a failed zone listing is fatal; every target comes from a listed asset and is admissible for it |
| HierarchyWalk.WalkTableComplete | aspect_attach_column.py:157-184 | a table walk that does not stop yields every target the scope admits for the table |
| HierarchyWalk.WalkTablesComplete | aspect_attach_column.py:157 | a walk of a dataset's tables that does not stop yields every admitted target of every listed table |
| HierarchyWalk.WalkAssetComplete | aspect_attach_column.py:124-155 | an asset walk that does not stop yields every target the scope admits for the asset |
| HierarchyWalk.WalkAssetsComplete | aspect_attach_column.py:124 | the same over the assets of a zone |
| HierarchyWalk.WalkZonesComplete | aspect_attach_column.py:119-124 | the same over the assets of every listed zone |
| HierarchyWalk.WalkLakeExact | aspect_attach_column.py:114-184 | a walk that runs to the end targets exactly the admissible targets of the listed assets, both ways: every selected asset, table and column gets a target, and nothing else does |
| HierarchyWalk.WalkTablesAppend | aspect_attach_column.py:157 | tables are walked in listing order: an earlier table's targets precede a later table's |
| HierarchyWalk.WalkZonesAppend | aspect_attach_column.py:119-122 | zones are walked in listing order: an earlier zone's targets precede a later zone's |
| HierarchyWalk.WalkAssetsAppend | aspect_attach_column.py:124 | assets are walked in listing order |
| HierarchyWalk.AssetKindIgnoresType | aspect_attach_column.py:142-150 | in the asset kind the asset's type changes nothing but the asset recorded |
| HierarchyWalk.WithoutColumnThen | aspect_attach_column.py:178-181 | the early exit of a missing column commutes with walking one part after another |
| HierarchyWalk.WalkTableWithoutColumn | aspect_attach_column.py:178-181 | at one table, a missing `--column` turns the column target into the fatal error |
| HierarchyWalk.WalkTablesWithoutColumn | aspect_attach_column.py:178-181 | the same over a dataset's tables |
| HierarchyWalk.WalkAssetWithoutColumn | aspect_attach_column.py:178-181 | the same over one asset |
| HierarchyWalk.WalkAssetsWithoutColumn | aspect_attach_column.py:178-181 | the same over a zone's assets |
| HierarchyWalk.WalkZonesWithoutColumn | aspect_attach_column.py:178-181 | the same over the zones |
| HierarchyWalk.ColumnCheckedLazily | aspect_attach_column.py:178-181 | without `--column`, the column kind stops at the first table it would attach to, with nothing attached; a walk that reaches no such table runs as if the column had been given |
| ColumnScript.TableTargetsShareEntry | aspect_attach_column.py:161-162 | a table and its columns all address the table's entry |
| ColumnScript.TargetCall | aspect_attach_column.py:143-144 | the call's URL is the base URL, `/`, the entries prefix and the quoted entry id of the target's table or dataset, and that id reads back from it. The body names the same entry and carries the aspects. It targets a column exactly when one is given, and then the `COLUMN` target of that column. The body has no other member |
| ColumnScript.TargetCalls | aspect_attach_column.py:146-183 | one such call per target, in target order, each body holding exactly `name`, `aspects` and, for a given column, `target` |
| ColumnScript.Run | aspect_attach_column.py:110-184 | an unresolved selection issues nothing. Otherwise there is one call per walk target, in walk order, each with exactly the body members above, and the run stops exactly when the walk did |
| ColumnScript.RunVerdict | aspect_attach_column.py:186-190 | the run succeeds exactly when the selection resolves, the walk completes and some call answers 200, and it then reports the 200 count |
| ColumnScript.RejectedRunIssuesNothing | aspect_attach_column.py:37-53 | an empty or undefined selection fails the run without any call |
| FlatScript.SelectTables | aspect_attach.py:108-120 | a dataset BigQuery does not find is fatal. `--table` selects that table alone if listed and is fatal otherwise. Without it every listed table is selected, in listing order |
| FlatScript.SelectEntries | aspect_attach.py:100-124 | the asset kind names one entry, the quoted raw asset name; the table kind names one entry per selected table of the dataset in the configured project, each the entries prefix followed by the quoted table entry id |
| FlatScript.EntryCalls | aspect_attach.py:122-127 | one call per entry, in order, addressed and named by the entry, whose body holds exactly `name` and `aspects` |
| FlatScript.Run | aspect_attach.py:99-127 | an unresolved selection or a missing dataset or table issues nothing. Otherwise there is one call per selected entry, in order, each body holding exactly `name` and `aspects` |
| FlatScript.AssetKindSingleCall | aspect_attach.py:100-104 | the asset kind makes exactly one call, to the entry named by the quoted asset name, whatever BigQuery lists |
| FlatScript.MissingTableIsFatal | aspect_attach.py:109-120 | a missing dataset or `--table` fails the table kind with no call |
| FlatScript.RunVerdict | aspect_attach.py:129-133 | the run succeeds exactly when the selection resolves, the entries are found and some call answers 200, and it then reports the 200 count |

## Left out

- Argument parsing (`argparse`): the parsed arguments are the model's inputs. `choices` and `required` are taken as already enforced.
- Reading `aspects.json`, including the missing-file error. The document is an input. The second read inside `main` is taken to give the same document as the first.
- The decoding of the `"groups"` JSON value into a table of id lists: the group table is a typed input. A `"groups"` value of another shape is not modelled.
- Credentials and authentication (`GOOGLE_APPLICATION_CREDENTIALS`, `google.auth`, token refresh) and their error exits.
- The network. The listings the scripts fetch are inputs: zones, assets, tables and schemas. A failed zone or asset listing is an absent listing, which stands for `raise_for_status`. Response statuses are a sequence with one status per issued call.
- `list_tables` errors other than `NotFound`. In `aspect_attach.py`, `get_dataset` succeeding while `list_tables` fails.
- The kind of a `get_table` error: every failure of that call is one fatal error, `SchemaLookupFailed`.
- Pagination of the listings: each listing is taken as complete.
- Error-message extraction from failed responses, and all printing.
- JSON serialisation (`json.dumps`, `json=`): the body is a JSON value. Key order is kept as the members' order.
- The lake path and the listing URLs: they only choose what is listed.
- `resourceSpec.resource` or `type` values that are JSON `null` or not strings.
- HierarchyWalk.IncludeColumns: lower-cases ASCII letters only. `argparse` admits only `true` and `false` here, so no other letter can occur.
- The hard-coded constants are a `Config` parameter. `EntryNames.Deployed` holds the scripts' values.
- `quote` is modelled from its documented behaviour (the `urllib.parse` source is not part of this model).
- PercentEncoding.Unquote: it is the strict partner of `quote` used to state round trips. It rejects malformed escapes rather than copying them through as Python's `unquote` does.

=== FILE: aggregation.dfy ===
/** Counting the attach calls that succeeded and the verdict the run ends
    with. A call succeeds exactly when its response status is 200; the run
    fails when no call succeeded. */
module Aggregation {
  import opened Wrappers
  import opened Attachment

  /** `attach_aspects` reports success exactly for status 200. */
  predicate Attached(status: int) {
    status == 200
  }

  /** The number of responses with status 200, counted in issue order. */
  function Successes(statuses: seq<int>): (n: nat)
    ensures n <= |statuses|
    ensures n == 0 <==> forall i :: 0 <= i < |statuses| ==> !Attached(statuses[i])
  {
    if |statuses| == 0 then 0
    else
      var init := statuses[..|statuses| - 1];
      assert forall i :: 0 <= i < |init| ==> init[i] == statuses[i];
      Successes(init) + (if Attached(statuses[|statuses| - 1]) then 1 else 0)
  }

  /** The script's `success_count += 1` loop over the responses. */
  method TallySuccesses(statuses: seq<int>) returns (count: nat)
    ensures count == Successes(statuses)
  {
    count := 0;
    var i := 0;
    while i < |statuses|
      invariant 0 <= i <= |statuses|
      invariant count == Successes(statuses[..i])
    {
      assert statuses[..i + 1][..i] == statuses[..i];
      if statuses[i] == 200 {
        count := count + 1;
      }
      i := i + 1;
    }
    assert statuses[..|statuses|] == statuses;
  }

  /** Counting distributes over a run cut in two. */
  lemma {:induction false} SuccessesAppend(a: seq<int>, b: seq<int>)
    ensures Successes(a + b) == Successes(a) + Successes(b)
    decreases |b|
  {
    if |b| == 0 {
      assert a + b == a;
    } else {
      var b' := b[..|b| - 1];
      assert (a + b)[..|a + b| - 1] == a + b';
      assert (a + b)[|a + b| - 1] == b[|b| - 1];
      SuccessesAppend(a, b');
    }
  }

  /** The index set of the successful responses. */
  function SuccessIndices(statuses: seq<int>): set<nat> {
    set i: nat | i < |statuses| && Attached(statuses[i])
  }

  /** The count is the number of positions holding status 200. */
  lemma {:induction false} SuccessesAreIndices(statuses: seq<int>)
    ensures Successes(statuses) == |SuccessIndices(statuses)|
  {
    if |statuses| > 0 {
      var n := |statuses| - 1;
      var init := statuses[..n];
      SuccessesAreIndices(init);
      var before := SuccessIndices(init);
      assert forall i: nat :: i < n ==> init[i] == statuses[i];
      if Attached(statuses[n]) {
        assert SuccessIndices(statuses) == before + {n};
      } else {
        assert SuccessIndices(statuses) == before;
      }
    }
  }

  /** How the run ends once every call has been made. */
  datatype Exit =
    | Success(attached: nat)  // exit status 0, reporting how many calls succeeded
    | Failure                 // exit status 1

  /** `if success_count == 0: sys.exit(1)`. */
  function Conclude(count: nat): Exit {
    if count == 0 then Failure else Success(count)
  }

  /** The run fails exactly when no response has status 200; otherwise it
      reports the number of 200 responses, which never exceeds the number of calls. */
  lemma ConcludeStatuses(statuses: seq<int>)
    ensures Conclude(Successes(statuses)).Failure? <==>
              forall i :: 0 <= i < |statuses| ==> statuses[i] != 200
    ensures Conclude(Successes(statuses)).Success? ==>
              Conclude(Successes(statuses)).attached == |SuccessIndices(statuses)| <= |statuses|
  {
    SuccessesAreIndices(statuses);
  }

  /** A partial failure still succeeds, reporting the calls that went through. */
  lemma PartialFailure()
    ensures Conclude(Successes([200, 500, 200])) == Success(2)
  {
    var s := [200, 500, 200];
    assert s[..2] == [200, 500];
    assert s[..2][..1] == [200];
    assert s[..2][..1][..0] == [];
  }

  /** The calls a run issued, in order, and what ended it early, if anything. */
  datatype Outcome<H> = Outcome(calls: seq<Call>, halt: Option<H>)

  /** The exit of a run given one response status per issued call: a run
      ended early fails; otherwise it fails exactly when no call succeeded. */
  function Verdict<H>(o: Outcome<H>, statuses: seq<int>): (e: Exit)
    requires |statuses| == |o.calls|
    ensures e.Success? <==> o.halt.None? && exists i :: 0 <= i < |statuses| && statuses[i] == 200
    ensures e.Success? ==> e.attached == |SuccessIndices(statuses)| <= |o.calls|
  {
    ConcludeStatuses(statuses);
    if o.halt.Some? then Failure else Conclude(Successes(statuses))
  }
}

=== FILE: aspect_resolver.dfy ===
/** Resolution of the `--aspects` selection: tokenising, group expansion,
    first-occurrence de-duplication and fail-closed validation against the
    aspect catalog. Both scripts run exactly this before any request. */
module AspectResolver {
  import opened Wrappers
  import opened Text
  import opened Sequences
  import opened Json

  /** The reserved key of the aspect document that holds the group table. */
  const GroupsKey := "groups"

  /** Group name to member aspect ids: the document's `"groups"` value, or the
      empty table when the document has none. */
  type GroupTable = map<string, seq<string>>

  /** The aspect document: aspect id to payload template, plus the reserved key. */
  type Catalog = map<string, Json>

  /** The ids an aspect may have: every key of the document except `"groups"`. */
  function KnownAspects(doc: Catalog): set<string> {
    doc.Keys - {GroupsKey}
  }

  // ---------------------------------------------------------------- tokens

  /** Each piece stripped, in order. */
  function StripAll(parts: seq<string>): (ss: seq<string>)
    ensures |ss| == |parts|
    ensures forall i :: 0 <= i < |parts| ==> ss[i] == Strip(parts[i])
  {
    MapSeq(Strip, parts)
  }

  /** The non-empty strings, in order. */
  function NonBlank(ss: seq<string>): (ts: seq<string>)
    ensures |ts| <= |ss|
  {
    if |ss| == 0 then []
    else
      var rest := NonBlank(ss[1..]);
      if ss[0] == "" then rest else [ss[0]] + rest
  }

  /** Filtering keeps exactly the non-empty strings. */
  lemma {:induction false} NonBlankMembers(ss: seq<string>)
    ensures forall x :: x in NonBlank(ss) <==> x in ss && x != ""
  {
    if |ss| > 0 {
      NonBlankMembers(ss[1..]);
      var rest := NonBlank(ss[1..]);
      assert forall x :: x in ss <==> x == ss[0] || x in ss[1..];
      assert forall x :: x in [ss[0]] + rest <==> x == ss[0] || x in rest;
    }
  }

  /** The stripped pieces, with the empty ones dropped, in order. */
  function StrippedTokens(parts: seq<string>): (ts: seq<string>)
    ensures |ts| <= |parts|
  {
    NonBlank(StripAll(parts))
  }

  /** The tokens are exactly the non-empty stripped pieces: none is lost and
      none is invented. */
  lemma StrippedTokensMembers(parts: seq<string>)
    ensures forall t :: t in StrippedTokens(parts) <==>
              t != "" && exists k :: 0 <= k < |parts| && Strip(parts[k]) == t
  {
    var ss := StripAll(parts);
    NonBlankMembers(ss);
    forall t ensures t in ss <==> exists k :: 0 <= k < |parts| && Strip(parts[k]) == t {
      if t in ss {
        var k :| 0 <= k < |ss| && ss[k] == t;
        assert Strip(parts[k]) == t;
      }
    }
  }

  lemma {:induction false} NonBlankAppend(a: seq<string>, b: seq<string>)
    ensures NonBlank(a + b) == NonBlank(a) + NonBlank(b)
  {
    if |a| == 0 {
      assert a + b == b;
    } else {
      assert (a + b)[0] == a[0] && (a + b)[1..] == a[1..] + b;
      NonBlankAppend(a[1..], b);
    }
  }

  lemma StripAllAppend(a: seq<string>, b: seq<string>)
    ensures StripAll(a + b) == StripAll(a) + StripAll(b)
  {
    MapSeqAppend(Strip, a, b);
  }

  /** Tokenising works piece by piece: the tokens keep the order of their pieces. */
  lemma StrippedTokensAppend(a: seq<string>, b: seq<string>)
    ensures StrippedTokens(a + b) == StrippedTokens(a) + StrippedTokens(b)
  {
    StripAllAppend(a, b);
    NonBlankAppend(StripAll(a), StripAll(b));
  }

  /** No token is left exactly when every piece strips to nothing. */
  lemma StrippedTokensEmptyIff(parts: seq<string>)
    ensures StrippedTokens(parts) == [] <==> forall p :: p in parts ==> Strip(p) == ""
  {
    var ts := StrippedTokens(parts);
    StrippedTokensMembers(parts);
    if ts != [] {
      assert ts[0] in ts;
      var k :| 0 <= k < |parts| && Strip(parts[k]) == ts[0];
      assert parts[k] in parts;
    } else {
      forall p | p in parts ensures Strip(p) == "" {
        var k :| 0 <= k < |parts| && parts[k] == p;
        assert Strip(parts[k]) !in ts;
      }
    }
  }

  /** Every token is non-empty, unpadded, and holds no character no piece holds. */
  lemma StrippedTokensShape(parts: seq<string>, c: char)
    requires forall p :: p in parts ==> c !in p
    ensures forall t :: t in StrippedTokens(parts) ==> Unpadded(t) && c !in t
  {
    StrippedTokensMembers(parts);
    forall t | t in StrippedTokens(parts) ensures Unpadded(t) && c !in t {
      var k :| 0 <= k < |parts| && Strip(parts[k]) == t;
      assert parts[k] in parts;
      StripShape(parts[k], c);
    }
  }

  lemma StripShape(p: string, c: char)
    requires c !in p && Strip(p) != ""
    ensures Unpadded(Strip(p)) && c !in Strip(p)
  {
  }

  /** `[a.strip() for a in selection.split(",") if a.strip()]`. Every token is
      non-empty, has no surrounding whitespace and holds no comma. */
  function Tokens(selection: string): (ts: seq<string>)
    ensures forall t :: t in ts ==> Unpadded(t) && ',' !in t
  {
    var parts := Split(selection, ',');
    StrippedTokensShape(parts, ',');
    StrippedTokens(parts)
  }

  predicate CommasAndSpaces(s: string) {
    forall k :: 0 <= k < |s| ==> s[k] == ',' || IsSpace(s[k])
  }

  lemma CommasAndSpacesCut(head: string, rest: string)
    ensures CommasAndSpaces(head + [','] + rest) <==> CommasAndSpaces(head) && CommasAndSpaces(rest)
  {
    var s := head + [','] + rest;
    assert forall k :: 0 <= k < |head| ==> s[k] == head[k];
    assert forall k :: 0 <= k < |rest| ==> s[|head| + 1 + k] == rest[k];
    if CommasAndSpaces(head) && CommasAndSpaces(rest) {
      forall k | 0 <= k < |s| ensures s[k] == ',' || IsSpace(s[k]) {
        if k < |head| {
          assert s[k] == head[k];
        } else if k > |head| {
          assert s[k] == rest[k - |head| - 1];
        }
      }
    }
  }

  lemma CommaFreeBlank(s: string)
    requires ',' !in s
    ensures CommasAndSpaces(s) <==> AllSpace(s)
  {
    assert forall k :: 0 <= k < |s| ==> s[k] != ',' by {
      forall k | 0 <= k < |s| ensures s[k] != ',' { assert s[k] in s; }
    }
  }

  /** Every piece of the split is blank exactly when the string holds only commas and whitespace. */
  lemma {:induction false} BlankPieces(s: string)
    ensures (forall p :: p in Split(s, ',') ==> AllSpace(p)) <==> CommasAndSpaces(s)
    decreases |s|
  {
    if ',' !in s {
      CommaFreeBlank(s);
    } else {
      var i := IndexOf(s, ',');
      var head, rest := s[..i], s[i + 1..];
      BlankPieces(rest);
      assert s == head + [','] + rest;
      CommasAndSpacesCut(head, rest);
      CommaFreeBlank(head);
      var parts := Split(s, ',');
      assert parts == [head] + Split(rest, ',');
      assert forall p :: p in parts <==> p == head || p in Split(rest, ',');
    }
  }

  /** The selection yields no token exactly when it holds nothing but commas
      and whitespace (the empty string included). */
  lemma NoTokensIff(selection: string)
    ensures Tokens(selection) == [] <==> CommasAndSpaces(selection)
  {
    var parts := Split(selection, ',');
    forall p | p in parts ensures Strip(p) == "" <==> AllSpace(p) {
      StripEmptyIffAllSpace(p);
    }
    StrippedTokensEmptyIff(parts);
    BlankPieces(selection);
  }

  // ---------------------------------------------------------------- expansion

  /** Token `token` puts `id` in the expansion: a group token puts its members,
      any other token puts itself. */
  predicate Contributes(groups: GroupTable, token: string, id: string) {
    if token in groups then id in groups[token] else id == token
  }

  /** Each group token replaced by its members in the group's order, every other
      token kept as a literal id. */
  function Expand(tokens: seq<string>, groups: GroupTable): (ids: seq<string>)
    ensures forall x :: x in ids <==> exists i :: 0 <= i < |tokens| && Contributes(groups, tokens[i], x)
  {
    if |tokens| == 0 then []
    else
      var head := if tokens[0] in groups then groups[tokens[0]] else [tokens[0]];
      var rest := Expand(tokens[1..], groups);
      assert forall i :: 0 <= i < |tokens| - 1 ==> tokens[1..][i] == tokens[i + 1];
      assert forall x :: x in head <==> Contributes(groups, tokens[0], x);
      head + rest
  }

  /** Expansion works token by token: earlier tokens' ids come first. */
  lemma {:induction false} ExpandAppend(a: seq<string>, b: seq<string>, groups: GroupTable)
    ensures Expand(a + b, groups) == Expand(a, groups) + Expand(b, groups)
  {
    if |a| > 0 {
      assert (a + b)[0] == a[0] && (a + b)[1..] == a[1..] + b;
      ExpandAppend(a[1..], b, groups);
    } else {
      assert a + b == b;
    }
  }

  function ExpandedSelection(selection: string, groups: GroupTable): seq<string> {
    Expand(Tokens(selection), groups)
  }

  // ---------------------------------------------------------------- validation

  /** `[a for a in ids if a not in known]`. */
  function Undefined(ids: seq<string>, known: set<string>): (bad: seq<string>)
    ensures |bad| <= |ids|
    ensures forall x :: x in bad <==> x in ids && x !in known
  {
    if |ids| == 0 then []
    else
      var rest := Undefined(ids[1..], known);
      assert forall x :: x in ids <==> x == ids[0] || x in ids[1..];
      if ids[0] in known then rest else [ids[0]] + rest
  }

  lemma FirstIndexBehindHead(ids: seq<string>, x: string)
    requires |ids| > 0 && x in ids[1..] && x != ids[0]
    ensures FirstIndex(ids, x) == 1 + FirstIndex(ids[1..], x)
  {
  }

  lemma NoDupTail(ids: seq<string>)
    requires NoDup(ids) && |ids| > 0
    ensures NoDup(ids[1..]) && ids[0] !in ids[1..]
  {
    var tail := ids[1..];
    forall i, j | 0 <= i < j < |tail| ensures tail[i] != tail[j] {
      assert tail[i] == ids[i + 1] && tail[j] == ids[j + 1];
    }
    forall k | 0 <= k < |tail| ensures tail[k] != ids[0] {
      assert tail[k] == ids[k + 1];
    }
  }

  /** On a duplicate-free list the undefined ids come out once each. */
  lemma {:induction false} UndefinedNoDup(ids: seq<string>, known: set<string>)
    requires NoDup(ids)
    ensures NoDup(Undefined(ids, known))
  {
    if |ids| > 0 {
      NoDupTail(ids);
      UndefinedNoDup(ids[1..], known);
      var rest := Undefined(ids[1..], known);
      if ids[0] !in known {
        var bad := [ids[0]] + rest;
        forall i, j | 0 <= i < j < |bad| ensures bad[i] != bad[j] {
          assert bad[j] == rest[j - 1] && bad[j] in ids[1..];
          if i > 0 {
            assert bad[i] == rest[i - 1];
          }
        }
      }
    }
  }

  /** An ordered selection from the tail of a duplicate-free list stays
      ordered against the whole list, with or without the head in front. */
  lemma OrderBehindHead(ids: seq<string>, rest: seq<string>)
    requires NoDup(ids) && |ids| > 0
    requires InFirstOccurrenceOrder(rest, ids[1..])
    ensures InFirstOccurrenceOrder(rest, ids)
    ensures InFirstOccurrenceOrder([ids[0]] + rest, ids)
  {
    var head, tail := ids[0], ids[1..];
    NoDupTail(ids);
    forall k | 0 <= k < |rest| ensures rest[k] in ids && FirstIndex(ids, rest[k]) == 1 + FirstIndex(tail, rest[k]) {
      assert rest[k] in tail;
      FirstIndexBehindHead(ids, rest[k]);
    }
    var bad := [head] + rest;
    assert FirstIndex(ids, head) == 0;
    forall i, j | 0 <= i < j < |bad| ensures FirstIndex(ids, bad[i]) < FirstIndex(ids, bad[j]) {
      assert bad[j] == rest[j - 1];
      if i > 0 {
        assert bad[i] == rest[i - 1];
      }
    }
  }

  /** On a duplicate-free list the undefined ids come out in list order. */
  lemma {:induction false} UndefinedInOrder(ids: seq<string>, known: set<string>)
    requires NoDup(ids)
    ensures InFirstOccurrenceOrder(Undefined(ids, known), ids)
  {
    if |ids| > 0 {
      NoDupTail(ids);
      UndefinedInOrder(ids[1..], known);
      OrderBehindHead(ids, Undefined(ids[1..], known));
    }
  }

  // ---------------------------------------------------------------- resolution

  datatype ResolveError =
    | EmptySelection                  // no token left after tokenising
    | UndefinedAspects(ids: seq<string>)  // every expanded id the catalog lacks

  /** The ordered, duplicate-free aspect ids the run attaches, or the error that
      stops the run before any request. */
  function Resolve(selection: string, groups: GroupTable, doc: Catalog): (r: Result<seq<string>, ResolveError>)
    ensures r == Err(EmptySelection) <==> Tokens(selection) == []
    ensures r.Ok? <==> Tokens(selection) != []
                       && forall x :: x in ExpandedSelection(selection, groups) ==> x in KnownAspects(doc)
    ensures r.Ok? ==> NoDup(r.value)
    ensures r.Ok? ==> forall x :: x in r.value <==> x in ExpandedSelection(selection, groups)
    ensures r.Ok? ==> InFirstOccurrenceOrder(r.value, ExpandedSelection(selection, groups))
    ensures r.Ok? ==> forall x :: x in r.value ==> x in doc && x != GroupsKey
    ensures r.Err? && r.error.UndefinedAspects? ==>
              && |r.error.ids| > 0
              && NoDup(r.error.ids)
              && (forall x :: x in r.error.ids <==>
                    x in ExpandedSelection(selection, groups) && x !in KnownAspects(doc))
              && InFirstOccurrenceOrder(r.error.ids, ExpandedSelection(selection, groups))
  {
    var tokens := Tokens(selection);
    if tokens == [] then Err(EmptySelection)
    else
      var expanded := Expand(tokens, groups);
      var known := KnownAspects(doc);
      var ids := Dedup(expanded);
      DedupOrder(expanded);
      var bad := Undefined(ids, known);
      UndefinedNoDup(ids, known);
      UndefinedInOrder(ids, known);
      OrderThrough(bad, ids, expanded);
      if |bad| > 0 then
        assert bad[0] in expanded && bad[0] !in known;
        Err(UndefinedAspects(bad))
      else
        assert forall x :: x in expanded ==> x in ids;
        assert forall x :: x in ids ==> x !in bad;
        Ok(ids)
  }

  lemma SplitTwo(a: string, b: string)
    requires ',' !in a && ',' !in b
    ensures Split(a + "," + b, ',') == [a, b]
  {
    assert a + "," + b == a + [','] + b;
    SplitAfterPiece(a, ',', b);
  }

  /** Filtering a list with no empty string keeps it as it is. */
  lemma {:induction false} NonBlankKeeps(ss: seq<string>)
    requires forall i :: 0 <= i < |ss| ==> ss[i] != ""
    ensures NonBlank(ss) == ss
  {
    if |ss| > 0 {
      NonBlankKeeps(ss[1..]);
      assert [ss[0]] + ss[1..] == ss;
    }
  }

  /** Pieces that are already unpadded come through tokenising unchanged:
      none is altered, none is dropped and their order is kept. */
  lemma UnpaddedPiecesKept(parts: seq<string>)
    requires forall i :: 0 <= i < |parts| ==> Unpadded(parts[i])
    ensures StrippedTokens(parts) == parts
  {
    var ss := StripAll(parts);
    forall i | 0 <= i < |parts|
      ensures ss[i] == parts[i]
    {
      StripUnpadded(parts[i]);
    }
    assert ss == parts;
    NonBlankKeeps(parts);
  }

  lemma TwoTokens(a: string, b: string)
    requires Unpadded(a) && Unpadded(b) && ',' !in a && ',' !in b
    ensures Tokens(a + "," + b) == [a, b]
  {
    SplitTwo(a, b);
    UnpaddedPiecesKept([a, b]);
  }

  lemma DedupRepeatFirst(x: string, y: string)
    requires x != y
    ensures Dedup([x, y, x]) == [x, y]
  {
    var e := [x, y, x];
    assert e[..2] == [x, y];
    assert e[..2][..1] == [x];
    assert [x][..0] == [];
  }

  lemma ExpandGroupThenMember(g: string, x: string, y: string)
    requires x != g
    ensures Expand([g, x], map[g := [x, y]]) == [x, y, x]
  {
    var groups := map[g := [x, y]];
    assert [g, x][1..] == [x];
    assert [x][1..] == [];
    assert Expand([x], groups) == [x];
  }

  /** No id is reported undefined exactly when every id is known. */
  lemma NoneUndefinedIff(ids: seq<string>, known: set<string>)
    ensures Undefined(ids, known) == [] <==> forall x :: x in ids ==> x in known
  {
    var bad := Undefined(ids, known);
    if bad != [] {
      assert bad[0] in bad;
    }
  }

  /** A group followed by a literal naming one of its members attaches every
      member once, in the group's order: `"g,x"` with `g = [x, y]` gives `[x, y]`. */
  lemma GroupThenLiteral(g: string, x: string, y: string, doc: Catalog)
    requires Unpadded(g) && Unpadded(x) && ',' !in g && ',' !in x
    requires x != g && x != y
    requires x in KnownAspects(doc) && y in KnownAspects(doc)
    ensures Resolve(g + "," + x, map[g := [x, y]], doc) == Ok([x, y])
  {
    TwoTokens(g, x);
    ExpandGroupThenMember(g, x, y);
    DedupRepeatFirst(x, y);
    NoneUndefinedIff([x, y], KnownAspects(doc));
  }
}

=== FILE: attachment.dfy ===
/** The attach request `attach_aspects` sends: the JSON payload naming the
    entry, the resolved aspects keyed by their full names, and the optional
    column target, PATCHed to the entry's URL. */
module Attachment {
  import opened Wrappers
  import opened Json
  import opened EntryNames
  import opened AspectResolver
  import Sequences

  /** An optional string argument that Python treats as true: present and non-empty. */
  predicate Given(flag: Option<string>) {
    flag.Some? && flag.value != ""
  }

  /** The full aspect name `{project}.{location}.{aspect}`. */
  function AspectKey(cfg: Config, a: string): string {
    cfg.project + "." + cfg.location + "." + a
  }

  /** The aspect id can be read back from its full name. */
  lemma AspectKeyInjective(cfg: Config, a: string, b: string)
    requires AspectKey(cfg, a) == AspectKey(cfg, b)
    ensures a == b
  {
    var n := |cfg.project + "." + cfg.location + "."|;
    assert AspectKey(cfg, a)[n..] == a;
    assert AspectKey(cfg, b)[n..] == b;
  }

  lemma AspectKeyDistinct(cfg: Config, a: string, b: string)
    requires a != b
    ensures AspectKey(cfg, a) != AspectKey(cfg, b)
  {
    if AspectKey(cfg, a) == AspectKey(cfg, b) {
      AspectKeyInjective(cfg, a, b);
    }
  }

  /** `{"data": template}`: the value recorded for one aspect. */
  function AspectData(template: Json): Json {
    JObject([("data", template)])
  }

  /** The `aspects` object of the payload, one member per resolved id in
      resolution order: its keys are the full names of the ids, in order, and
      looking up the full name of a resolved id gives that aspect's catalog
      template under `data`. */
  function AspectsPayload(cfg: Config, ids: seq<string>, doc: Catalog): (members: seq<(string, Json)>)
    requires forall a :: a in ids ==> a in doc
    ensures |members| == |ids|
    ensures forall i :: 0 <= i < |ids| ==> Keys(members)[i] == AspectKey(cfg, ids[i])
    ensures forall a :: a in ids ==> Get(members, AspectKey(cfg, a)) == Some(AspectData(doc[a]))
  {
    if |ids| == 0 then []
    else
      var rest := AspectsPayload(cfg, ids[1..], doc);
      PayloadConsKeys(cfg, ids, doc, rest);
      PayloadConsGet(cfg, ids, doc, rest);
      [(AspectKey(cfg, ids[0]), AspectData(doc[ids[0]]))] + rest
  }

  /** The key of the first id in front of the keys of the others. */
  lemma PayloadConsKeys(cfg: Config, ids: seq<string>, doc: Catalog, rest: seq<(string, Json)>)
    requires |ids| > 0 && ids[0] in doc
    requires |rest| == |ids[1..]|
    requires forall i :: 0 <= i < |ids[1..]| ==> Keys(rest)[i] == AspectKey(cfg, ids[1..][i])
    ensures var members := [(AspectKey(cfg, ids[0]), AspectData(doc[ids[0]]))] + rest;
            && |members| == |ids|
            && forall i :: 0 <= i < |ids| ==> Keys(members)[i] == AspectKey(cfg, ids[i])
  {
    var members := [(AspectKey(cfg, ids[0]), AspectData(doc[ids[0]]))] + rest;
    forall i | 0 < i < |ids| ensures Keys(members)[i] == AspectKey(cfg, ids[i]) {
      assert members[i] == rest[i - 1] && ids[1..][i - 1] == ids[i];
    }
  }

  /** Looking up an id in front of the others finds its own member. */
  lemma PayloadConsGet(cfg: Config, ids: seq<string>, doc: Catalog, rest: seq<(string, Json)>)
    requires |ids| > 0 && forall a :: a in ids ==> a in doc
    requires forall a :: a in ids[1..] ==> Get(rest, AspectKey(cfg, a)) == Some(AspectData(doc[a]))
    ensures var members := [(AspectKey(cfg, ids[0]), AspectData(doc[ids[0]]))] + rest;
            forall a :: a in ids ==> Get(members, AspectKey(cfg, a)) == Some(AspectData(doc[a]))
  {
    var members := [(AspectKey(cfg, ids[0]), AspectData(doc[ids[0]]))] + rest;
    assert members[1..] == rest;
    forall a | a in ids ensures Get(members, AspectKey(cfg, a)) == Some(AspectData(doc[a])) {
      if a != ids[0] {
        assert a in ids[1..];
        AspectKeyDistinct(cfg, a, ids[0]);
      }
    }
  }

  /** Distinct ids give distinct keys, so the members form a dictionary
      without repeated keys, just as the Python dict does. */
  lemma {:induction false} AspectsPayloadKeysDistinct(cfg: Config, ids: seq<string>, doc: Catalog)
    requires forall a :: a in ids ==> a in doc
    requires Sequences.NoDup(ids)
    ensures Sequences.NoDup(Keys(AspectsPayload(cfg, ids, doc)))
  {
    var ks := Keys(AspectsPayload(cfg, ids, doc));
    forall i, j | 0 <= i < j < |ks| ensures ks[i] != ks[j] {
      AspectKeyDistinct(cfg, ids[i], ids[j]);
    }
  }

  /** The `target` member addressing one column of the entry. */
  function ColumnTarget(column: string): Json {
    JObject([("type", JString("COLUMN")), ("name", JString(column))])
  }

  /** The members `name`, `aspects` and an optional `target`, in that order. */
  function BodyMembers(name: Json, aspects: Json, target: Option<Json>): seq<(string, Json)> {
    [("name", name), ("aspects", aspects)] + (if target.Some? then [("target", target.value)] else [])
  }

  /** Each of the three names reads back its own value, and no other name is present. */
  lemma BodyMembersShape(name: Json, aspects: Json, target: Option<Json>)
    ensures Keys(BodyMembers(name, aspects, target)) == ["name", "aspects"] + (if target.Some? then ["target"] else [])
    ensures Get(BodyMembers(name, aspects, target), "name") == Some(name)
    ensures Get(BodyMembers(name, aspects, target), "aspects") == Some(aspects)
    ensures Get(BodyMembers(name, aspects, target), "target") == target
  {
    var m := BodyMembers(name, aspects, target);
    assert m[1..][1..] == m[2..];
    if target.Some? {
      assert m[2..] == [("target", target.value)] && m[2..][1..] == [];
    } else {
      assert m[2..] == [];
    }
  }

  /** The `target` value: the `COLUMN` target when a non-empty column is given. */
  function TargetValue(column: Option<string>): (t: Option<Json>)
    ensures t.Some? <==> Given(column)
  {
    if Given(column) then Some(ColumnTarget(column.value)) else None
  }

  /** The PATCH body: `name`, then `aspects`, then `target` exactly when a
      non-empty column name is supplied, and no other member. */
  function Payload(cfg: Config, ids: seq<string>, doc: Catalog, entryName: string, column: Option<string>): (body: Json)
    requires forall a :: a in ids ==> a in doc
    ensures body.JObject?
    ensures Get(body.members, "name") == Some(JString(entryName))
    ensures Get(body.members, "aspects") == Some(JObject(AspectsPayload(cfg, ids, doc)))
    ensures Get(body.members, "target").Some? <==> Given(column)
    ensures Given(column) ==> Get(body.members, "target") == Some(ColumnTarget(column.value))
    ensures Keys(body.members) == ["name", "aspects"] + (if Given(column) then ["target"] else [])
  {
    var name, aspects, target := JString(entryName), JObject(AspectsPayload(cfg, ids, doc)), TargetValue(column);
    BodyMembersShape(name, aspects, target);
    JObject(BodyMembers(name, aspects, target))
  }

  /** The payload is the only body with its members' names and values: a body
      with exactly the members `name`, `aspects` and, for a given column,
      `target`, holding the payload's values, is the payload. */
  lemma PayloadDetermined(cfg: Config, ids: seq<string>, doc: Catalog, entryName: string, column: Option<string>,
                          members: seq<(string, Json)>)
    requires forall a :: a in ids ==> a in doc
    requires Keys(members) == ["name", "aspects"] + (if Given(column) then ["target"] else [])
    requires Get(members, "name") == Some(JString(entryName))
    requires Get(members, "aspects") == Some(JObject(AspectsPayload(cfg, ids, doc)))
    requires Given(column) ==> Get(members, "target") == Some(ColumnTarget(column.value))
    ensures JObject(members) == Payload(cfg, ids, doc, entryName, column)
  {
    var ks := Keys(members);
    var t: Option<Json> := if Given(column) then Some(members[2].1) else None;
    var same := BodyMembers(members[0].1, members[1].1, t);
    assert ks[0] == "name" && ks[1] == "aspects" && (Given(column) ==> ks[2] == "target");
    assert members == same;
    BodyMembersShape(members[0].1, members[1].1, t);
  }

  /** One `requests.patch` the script issues. */
  datatype Call = Call(url: string, body: Json)

  /** The call attaching the resolved aspects to one entry (or one of its
      columns). The URL ends in the entry name, and the body names the same
      entry the URL addresses. */
  function AttachCall(cfg: Config, ids: seq<string>, doc: Catalog, entryName: string, column: Option<string>): (c: Call)
    requires forall a :: a in ids ==> a in doc
    ensures |c.url| > |cfg.baseUrl| && c.url[..|cfg.baseUrl| + 1] == cfg.baseUrl + "/"
    ensures c.url[|cfg.baseUrl| + 1..] == entryName
    ensures c.body.JObject? && Get(c.body.members, "name") == Some(JString(c.url[|cfg.baseUrl| + 1..]))
    ensures Get(c.body.members, "aspects") == Some(JObject(AspectsPayload(cfg, ids, doc)))
    ensures Get(c.body.members, "target").Some? <==> Given(column)
    ensures Given(column) ==> Get(c.body.members, "target") == Some(ColumnTarget(column.value))
    ensures Keys(c.body.members) == ["name", "aspects"] + (if Given(column) then ["target"] else [])
  {
    var url := cfg.baseUrl + "/" + entryName;
    assert url[..|cfg.baseUrl| + 1] == cfg.baseUrl + "/" && url[|cfg.baseUrl| + 1..] == entryName;
    Call(url, Payload(cfg, ids, doc, entryName, column))
  }
}

=== FILE: column_script.dfy ===
/** A run of `aspect_attach_column.py`: resolve the selection, walk the lake,
    and issue one attach call per target, in walk order. */
module ColumnScript {
  import opened Wrappers
  import opened Json
  import opened PercentEncoding
  import opened EntryNames
  import opened AspectResolver
  import opened Attachment
  import opened Aggregation
  import opened HierarchyWalk

  /** The catalog entry a target addresses: the table's entry for a table or
      column target, the dataset's entry for an asset target. */
  function TargetEntryId(x: Target): string {
    if x.table.Some? then TableEntryId(x.project, x.dataset, x.table.value.id)
    else DatasetEntryId(x.project, x.dataset)
  }

  /** Every target a table yields, the table itself and each of its columns,
      addresses the table's own entry. */
  lemma TableTargetsShareEntry(scope: Scope, a: Asset, p: string, d: string, t: Table)
    requires scope.kind != AssetKind
    ensures forall x :: x in WalkTable(scope, a, p, d, t).targets ==>
              TargetEntryId(x) == TableEntryId(p, d, t.id)
  {
  }

  /** Why a run ended before or during the walk. */
  datatype Halt =
    | Rejected(reason: ResolveError)  // the selection did not resolve; nothing was requested
    | Stopped(fatal: Fatal)           // the walk ended early

  /** `c` attaches the resolved aspects to target `x`: its URL is the base URL
      followed by the entries prefix and the quoted entry id of the target,
      from which that id reads back; its body names the same entry, carries
      the resolved aspects, and targets the target's column exactly when it
      has a non-empty one, with no other member. */
  predicate CallFor(cfg: Config, ids: seq<string>, doc: Catalog, x: Target, c: Call)
    requires forall a :: a in ids ==> a in doc
  {
    && |c.url| > |cfg.baseUrl| && c.url[..|cfg.baseUrl| + 1] == cfg.baseUrl + "/"
    && c.url[|cfg.baseUrl| + 1..] == EntriesPrefix(cfg) + Quote(TargetEntryId(x))
    && EntryIdOf(cfg, c.url[|cfg.baseUrl| + 1..]) == Some(TargetEntryId(x))
    && c.body.JObject?
    && Get(c.body.members, "name") == Some(JString(c.url[|cfg.baseUrl| + 1..]))
    && Get(c.body.members, "aspects") == Some(JObject(AspectsPayload(cfg, ids, doc)))
    && (Get(c.body.members, "target").Some? <==> Given(x.column))
    && (Given(x.column) ==> Get(c.body.members, "target") == Some(ColumnTarget(x.column.value)))
    && Keys(c.body.members) == ["name", "aspects"] + (if Given(x.column) then ["target"] else [])
  }

  function TargetCall(cfg: Config, ids: seq<string>, doc: Catalog, x: Target): (c: Call)
    requires forall a :: a in ids ==> a in doc
    ensures CallFor(cfg, ids, doc, x, c)
  {
    var name := EntryName(cfg, TargetEntryId(x));
    assert name == EntriesPrefix(cfg) + Quote(TargetEntryId(x));
    AttachCall(cfg, ids, doc, name, x.column)
  }

  /** One call per target, in target order. */
  function TargetCalls(cfg: Config, ids: seq<string>, doc: Catalog, xs: seq<Target>): (calls: seq<Call>)
    requires forall a :: a in ids ==> a in doc
    ensures |calls| == |xs|
    ensures forall i :: 0 <= i < |xs| ==> CallFor(cfg, ids, doc, xs[i], calls[i])
  {
    seq(|xs|, i requires 0 <= i < |xs| => TargetCall(cfg, ids, doc, xs[i]))
  }

  /** The run. A selection that does not resolve stops it before any call.
      Otherwise each target of the walk gets one call, in walk order, and a
      walk that ended early ends the run after the calls it reached. */
  function Run(cfg: Config, scope: Scope, selection: string, groups: GroupTable, doc: Catalog,
               bq: Listings, zones: Option<seq<Zone>>): (o: Outcome<Halt>)
    ensures Resolve(selection, groups, doc).Err? ==>
              o == Outcome([], Some(Rejected(Resolve(selection, groups, doc).error)))
    ensures Resolve(selection, groups, doc).Ok? ==>
              var ids, plan := Resolve(selection, groups, doc).value, WalkLake(scope, bq, zones);
              && |o.calls| == |plan.targets|
              && (o.halt.None? <==> plan.stop.None?)
              && (plan.stop.Some? ==> o.halt == Some(Stopped(plan.stop.value)))
              && forall i :: 0 <= i < |o.calls| ==> CallFor(cfg, ids, doc, plan.targets[i], o.calls[i])
  {
    match Resolve(selection, groups, doc)
    case Err(e) => Outcome([], Some(Rejected(e)))
    case Ok(ids) =>
      var plan := WalkLake(scope, bq, zones);
      Outcome(TargetCalls(cfg, ids, doc, plan.targets), if plan.stop.Some? then Some(Stopped(plan.stop.value)) else None)
  }

  /** The run succeeds exactly when the selection resolves, the walk completes,
      and some call answers 200; it then reports how many did. */
  lemma RunVerdict(cfg: Config, scope: Scope, selection: string, groups: GroupTable, doc: Catalog,
                   bq: Listings, zones: Option<seq<Zone>>, statuses: seq<int>)
    requires |statuses| == |Run(cfg, scope, selection, groups, doc, bq, zones).calls|
    ensures var e := Verdict(Run(cfg, scope, selection, groups, doc, bq, zones), statuses);
            && (e.Success? <==>
                  && Resolve(selection, groups, doc).Ok?
                  && WalkLake(scope, bq, zones).stop.None?
                  && exists i :: 0 <= i < |statuses| && statuses[i] == 200)
            && (e.Success? ==> e.attached == Successes(statuses))
  {
    SuccessesAreIndices(statuses);
  }

  /** A selection that yields no token, or names an aspect the catalog lacks,
      fails the run without a single call. */
  lemma RejectedRunIssuesNothing(cfg: Config, scope: Scope, selection: string, groups: GroupTable, doc: Catalog,
                                 bq: Listings, zones: Option<seq<Zone>>)
    requires Tokens(selection) == [] ||
             exists x :: x in ExpandedSelection(selection, groups) && x !in KnownAspects(doc)
    ensures Run(cfg, scope, selection, groups, doc, bq, zones).calls == []
    ensures Verdict(Run(cfg, scope, selection, groups, doc, bq, zones), []) == Failure
  {
  }
}

=== FILE: entry_names.dfy ===
/** Catalog entry names for BigQuery datasets and tables, and the parser that
    takes an asset's underlying resource path apart. */
module EntryNames {
  import opened Wrappers
  import opened Text
  import opened PercentEncoding

  /** The scripts' module-level constants, made an explicit value. */
  datatype Config = Config(project: string, location: string, entryGroup: string, baseUrl: string)

  /** The values both scripts hard-code. */
  const Deployed := Config("clean-aleph-411709", "us-central1", "@bigquery", "https://dataplex.googleapis.com/v1")

  /** The service prefix removed from an asset's resource path. */
  const ServicePrefix := "//bigquery.googleapis.com/"

  function DatasetEntryId(project: string, dataset: string): string {
    "bigquery.googleapis.com/projects/" + project + "/datasets/" + dataset
  }

  function TableEntryId(project: string, dataset: string, table: string): string {
    DatasetEntryId(project, dataset) + "/tables/" + table
  }

  /** `projects/{P}/locations/{L}/entryGroups/{G}/entries/`: everything before the quoted id. */
  function EntriesPrefix(cfg: Config): string {
    "projects/" + cfg.project + "/locations/" + cfg.location + "/entryGroups/" + cfg.entryGroup + "/entries/"
  }

  /** Partner of `EntryName`: strips the entries prefix and unquotes the rest. */
  function EntryIdOf(cfg: Config, name: string): Option<string> {
    var prefix := EntriesPrefix(cfg);
    if |name| >= |prefix| && name[..|prefix|] == prefix then Unquote(name[|prefix|..]) else None
  }

  /** The entry resource name of an entry id: the entries prefix followed by
      `quote(entryId)`. The id can be read back from the name, and the quoted
      part holds only characters `quote` produces. */
  function EntryName(cfg: Config, entryId: string): (name: string)
    ensures |name| >= |EntriesPrefix(cfg)| && name[..|EntriesPrefix(cfg)|] == EntriesPrefix(cfg)
    ensures forall k :: |EntriesPrefix(cfg)| <= k < |name| ==> IsQuotedChar(name[k])
    ensures EntryIdOf(cfg, name) == Some(entryId)
  {
    var prefix := EntriesPrefix(cfg);
    var quoted := Quote(entryId);
    var name := prefix + quoted;
    assert name[..|prefix|] == prefix && name[|prefix|..] == quoted;
    QuoteRoundTrip(entryId);
    name
  }

  /** Different entry ids never share an entry name. */
  lemma EntryNameInjective(cfg: Config, id1: string, id2: string)
    requires EntryName(cfg, id1) == EntryName(cfg, id2)
    ensures id1 == id2
  {
  }

  /** Quoting a table entry id quotes each component separately; the literal
      parts and their `/` separators pass through unchanged. */
  lemma QuoteTableEntryId(project: string, dataset: string, table: string)
    ensures Quote(TableEntryId(project, dataset, table)) ==
            "bigquery.googleapis.com/projects/" + Quote(project) + "/datasets/" + Quote(dataset)
            + "/tables/" + Quote(table)
  {
    SafeLiteral("bigquery.googleapis.com/projects/");
    SafeLiteral("/datasets/");
    SafeLiteral("/tables/");
    QuoteAroundSafe("bigquery.googleapis.com/projects/", project, "/datasets/", dataset, "/tables/", table);
  }

  /** Quoting passes unchanged literals through and quotes what lies between them. */
  lemma QuoteAroundSafe(l1: string, a: string, l2: string, b: string, l3: string, c: string)
    requires Quote(l1) == l1 && Quote(l2) == l2 && Quote(l3) == l3
    ensures Quote(l1 + a + l2 + b + l3 + c) == l1 + Quote(a) + l2 + Quote(b) + l3 + Quote(c)
  {
    QuoteAppend(l1 + a + l2 + b + l3, c);
    QuoteAppend(l1 + a + l2 + b, l3);
    QuoteAppend(l1 + a + l2, b);
    QuoteAppend(l1 + a, l2);
    QuoteAppend(l1, a);
  }

  lemma SafeLiteral(s: string)
    requires s in {"bigquery.googleapis.com/projects/", "/datasets/", "/tables/"}
    ensures Quote(s) == s
  {
    QuoteSafeIdentity(s);
  }

  /** When every component is made of letters, digits, `-._~`, the entry name is
      the plain concatenation: nothing is escaped. */
  lemma SafeTableEntryName(cfg: Config, project: string, dataset: string, table: string)
    requires forall k :: 0 <= k < |project| ==> IsSafeChar(project[k])
    requires forall k :: 0 <= k < |dataset| ==> IsSafeChar(dataset[k])
    requires forall k :: 0 <= k < |table| ==> IsSafeChar(table[k])
    ensures EntryName(cfg, TableEntryId(project, dataset, table))
            == EntriesPrefix(cfg) + TableEntryId(project, dataset, table)
  {
    QuoteTableEntryId(project, dataset, table);
    QuoteSafeIdentity(project);
    QuoteSafeIdentity(dataset);
    QuoteSafeIdentity(table);
  }

  /** With the scripts' own constants, a table of a dataset in the scripts' own
      project, whose dataset and table names need no escaping, is attached
      under the plain entry name: `clean-aleph-411709` is not escaped either. */
  lemma DeployedTableEntryName(dataset: string, table: string)
    requires forall k :: 0 <= k < |dataset| ==> IsSafeChar(dataset[k])
    requires forall k :: 0 <= k < |table| ==> IsSafeChar(table[k])
    ensures EntryName(Deployed, TableEntryId("clean-aleph-411709", dataset, table))
            == ("projects/" + "clean-aleph-411709" + "/locations/" + "us-central1"
                + "/entryGroups/" + "@bigquery" + "/entries/")
               + ("bigquery.googleapis.com/projects/" + "clean-aleph-411709" + "/datasets/" + dataset
                  + "/tables/" + table)
  {
    DeployedProjectSafe();
    SafeTableEntryName(Deployed, Deployed.project, dataset, table);
  }

  lemma DeployedProjectSafe()
    ensures forall k :: 0 <= k < |Deployed.project| ==> IsSafeChar(Deployed.project[k])
  {
    var project := Deployed.project;
    assert forall k :: 0 <= k < |project| ==> IsSafeChar(project[k]);
  }

  // ---------------------------------------------------------------- resource paths

  function CountChar(s: string, c: char): nat {
    if |s| == 0 then 0 else (if s[0] == c then 1 else 0) + CountChar(s[1..], c)
  }

  /** An asset's `resourceSpec.resource` with every occurrence of the service
      prefix removed (Python's `str.replace`), split on `/`: exactly four parts
      give `(parts[1], parts[3])` as (project, dataset); anything else gives nothing. */
  function ParseResource(resource: string): (r: Option<(string, string)>)
    ensures r.Some? ==> '/' !in r.value.0 && '/' !in r.value.1
  {
    var parts := Split(Replace(resource, ServicePrefix, ""), '/');
    if |parts| != 4 then None
    else
      assert parts[1] in parts && parts[3] in parts;
      Some((parts[1], parts[3]))
  }

  lemma {:induction false} CountCharAppend(a: string, b: string, c: char)
    ensures CountChar(a + b, c) == CountChar(a, c) + CountChar(b, c)
  {
    if |a| > 0 {
      assert (a + b)[0] == a[0] && (a + b)[1..] == a[1..] + b;
      CountCharAppend(a[1..], b, c);
    } else {
      assert a + b == b;
    }
  }

  lemma {:induction false} CountCharAbsent(s: string, c: char)
    requires c !in s
    ensures CountChar(s, c) == 0
  {
    if |s| > 0 {
      assert c !in s[1..] by { assert forall x :: x in s[1..] ==> x in s; }
      CountCharAbsent(s[1..], c);
    }
  }

  /** A split has one more piece than there are separators. */
  lemma {:induction false} SplitCount(s: string, sep: char)
    ensures |Split(s, sep)| == CountChar(s, sep) + 1
    decreases |s|
  {
    if sep in s {
      var i := IndexOf(s, sep);
      SplitCount(s[i + 1..], sep);
      assert s == s[..i] + ([sep] + s[i + 1..]);
      CountCharAppend(s[..i], [sep] + s[i + 1..], sep);
      CountCharAppend([sep], s[i + 1..], sep);
      CountCharAbsent(s[..i], sep);
    } else {
      CountCharAbsent(s, sep);
    }
  }

  /** The parse succeeds exactly when three `/` remain once the service prefix is removed. */
  lemma ParseResourceSucceedsIff(resource: string)
    ensures ParseResource(resource).Some? <==> CountChar(Replace(resource, ServicePrefix, ""), '/') == 3
  {
    SplitCount(Replace(resource, ServicePrefix, ""), '/');
  }

  /** The empty resource path never parses (one empty part). */
  lemma ParseEmptyResource()
    ensures ParseResource("") == None
  {
  }

  predicate NoAdjacentSlashes(s: string) {
    forall i :: 0 <= i < |s| - 1 ==> !(s[i] == '/' && s[i + 1] == '/')
  }

  lemma JoinKeepsSlashesApart(x: string, y: string)
    requires |x| > 0 && x[|x| - 1] != '/' && NoAdjacentSlashes(x)
    requires |y| > 0 && '/' !in y
    ensures var t := x + "/" + y; t[|t| - 1] != '/' && NoAdjacentSlashes(t)
  {
    var t := x + "/" + y;
    assert t[|t| - 1] == y[|y| - 1];
    forall i | 0 <= i < |t| - 1 ensures !(t[i] == '/' && t[i + 1] == '/') {
      if i < |x| - 1 {
        assert t[i] == x[i] && t[i + 1] == x[i + 1];
      } else if i == |x| - 1 {
        assert t[i] == x[|x| - 1];
      } else if i == |x| {
        assert t[i + 1] == y[0];
      } else {
        assert t[i] == y[i - |x| - 1];
      }
    }
  }

  /** A string without two adjacent slashes holds no copy of the service prefix. */
  lemma NoPrefixInside(rest: string)
    requires NoAdjacentSlashes(rest)
    ensures forall i: nat :: !OccursAt(rest, ServicePrefix, i)
  {
    forall i: nat ensures !OccursAt(rest, ServicePrefix, i) {
      if i + |ServicePrefix| <= |rest| {
        var window := rest[i..i + |ServicePrefix|];
        assert window[0] == rest[i] && window[1] == rest[i + 1];
        assert !(rest[i] == '/' && rest[i + 1] == '/');
        assert ServicePrefix[0] == '/' && ServicePrefix[1] == '/';
      }
    }
  }

  lemma JoinFour(a: string, p: string, b: string, d: string)
    ensures Join([a, p, b, d], '/') == a + "/" + p + "/" + b + "/" + d
  {
    assert [a, p, b, d][1..] == [p, b, d] && [p, b, d][1..] == [b, d] && [b, d][1..] == [d];
    assert Join([b, d], '/') == b + "/" + d;
    assert Join([p, b, d], '/') == p + "/" + (b + "/" + d);
  }

  /** The service prefix in front of a path without two adjacent slashes is
      the only copy `replace` removes. */
  lemma PrefixRemoved(rest: string)
    requires NoAdjacentSlashes(rest)
    ensures Replace(ServicePrefix + rest, ServicePrefix, "") == rest
  {
    NoPrefixInside(rest);
    ReplaceAbsent(rest, ServicePrefix, "");
    ReplaceLeading(ServicePrefix, "", rest);
    assert "" + rest == rest;
  }

  /** Four non-empty, slash-free segments joined by `/` keep their slashes apart. */
  lemma FourSegmentsApart(a: string, p: string, b: string, d: string)
    requires a != "" && p != "" && b != "" && d != ""
    requires '/' !in a && '/' !in p && '/' !in b && '/' !in d
    ensures NoAdjacentSlashes(a + "/" + p + "/" + b + "/" + d)
  {
    assert a[|a| - 1] in a;
    JoinKeepsSlashesApart(a, p);
    JoinKeepsSlashesApart(a + "/" + p, b);
    JoinKeepsSlashesApart(a + "/" + p + "/" + b, d);
  }

  lemma SplitFour(a: string, p: string, b: string, d: string)
    requires '/' !in a && '/' !in p && '/' !in b && '/' !in d
    ensures Split(a + "/" + p + "/" + b + "/" + d, '/') == [a, p, b, d]
  {
    JoinFour(a, p, b, d);
    SplitJoin([a, p, b, d], '/');
  }

  lemma Regroup(x: string, a: string, p: string, b: string, d: string)
    ensures x + a + "/" + p + "/" + b + "/" + d == x + (a + "/" + p + "/" + b + "/" + d)
    ensures x + (a + "/") + p + ("/" + b + "/") + d == x + a + "/" + p + "/" + b + "/" + d
  {
  }

  /** Any path `{a}/{p}/{b}/{d}` of non-empty, slash-free segments behind the
      service prefix parses to `(p, d)`; the `a` and `b` labels are not checked. */
  lemma ParseFourSegments(a: string, p: string, b: string, d: string)
    requires a != "" && p != "" && b != "" && d != ""
    requires '/' !in a && '/' !in p && '/' !in b && '/' !in d
    ensures ParseResource(ServicePrefix + a + "/" + p + "/" + b + "/" + d) == Some((p, d))
  {
    var resource, rest := ServicePrefix + a + "/" + p + "/" + b + "/" + d, a + "/" + p + "/" + b + "/" + d;
    assert Replace(resource, ServicePrefix, "") == rest by {
      FourSegmentsApart(a, p, b, d);
      PrefixRemoved(rest);
      Regroup(ServicePrefix, a, p, b, d);
    }
    assert Split(rest, '/') == [a, p, b, d] by {
      SplitFour(a, p, b, d);
    }
    ParseOfParts(resource, [a, p, b, d]);
  }

  lemma ParseOfParts(resource: string, parts: seq<string>)
    requires Split(Replace(resource, ServicePrefix, ""), '/') == parts && |parts| == 4
    ensures ParseResource(resource) == Some((parts[1], parts[3]))
  {
  }

  /** Conversely, a parse only succeeds on a path `{a}/{p}/{b}/{d}` once the
      service prefix is removed, and gives its second and fourth segments. */
  lemma ParseResourceSound(resource: string)
    requires ParseResource(resource).Some?
    ensures var (p, d) := ParseResource(resource).value;
            exists a, b :: Replace(resource, ServicePrefix, "") == a + "/" + p + "/" + b + "/" + d
  {
    var rest := Replace(resource, ServicePrefix, "");
    var parts := Split(rest, '/');
    JoinSplit(rest, '/');
    JoinFour(parts[0], parts[1], parts[2], parts[3]);
    assert parts == [parts[0], parts[1], parts[2], parts[3]];
    assert rest == parts[0] + "/" + parts[1] + "/" + parts[2] + "/" + parts[3];
  }

  /** The canonical `//bigquery.googleapis.com/projects/{p}/datasets/{d}` parses to `(p, d)`. */
  lemma ParseDatasetResource(p: string, d: string)
    requires p != "" && d != "" && '/' !in p && '/' !in d
    ensures ParseResource("//bigquery.googleapis.com/projects/" + p + "/datasets/" + d) == Some((p, d))
  {
    ParseFourSegments("projects", p, "datasets", d);
    assert "//bigquery.googleapis.com/projects/" == ServicePrefix + ("projects" + "/");
    assert "/datasets/" == "/" + "datasets" + "/";
    Regroup(ServicePrefix, "projects", p, "datasets", d);
  }
}

=== FILE: flat_script.dfy ===
/** A run of `aspect_attach.py`: resolve the selection, then attach to one
    asset entry, or to the tables of one dataset of the configured project. */
module FlatScript {
  import opened Wrappers
  import opened Json
  import opened PercentEncoding
  import opened EntryNames
  import opened AspectResolver
  import opened Attachment
  import opened Aggregation

  /** `--entry_type`: this script knows only assets and tables. */
  datatype FlatKind = AssetEntry | TableEntry

  /** The table ids BigQuery lists for each dataset of the configured project;
      a dataset missing from the map answers `NotFound` to `get_dataset`. */
  type Datasets = map<string, seq<string>>

  /** The errors that end the run before any call. */
  datatype Halt =
    | Rejected(reason: ResolveError)  // the selection did not resolve
    | DatasetNotFound(dataset: string)
    | TableNotFound(table: string)

  /** The tables the table kind attaches to: with `--table`, that table alone
      if the dataset lists it; without, every listed table in listing order. */
  function SelectTables(asset: string, table: Option<string>, datasets: Datasets): (r: Result<seq<string>, Halt>)
    ensures asset !in datasets ==> r == Err(DatasetNotFound(asset))
    ensures r.Err? ==> r == Err(DatasetNotFound(asset)) || (Given(table) && r == Err(TableNotFound(table.value)))
    ensures asset in datasets && Given(table) ==>
              (r.Ok? <==> table.value in datasets[asset]) && (r.Ok? ==> r.value == [table.value])
    ensures asset in datasets && !Given(table) ==> r == Ok(datasets[asset])
    ensures r.Ok? ==> forall t :: t in r.value ==> t in datasets[asset] && (Given(table) ==> t == table.value)
  {
    if asset !in datasets then Err(DatasetNotFound(asset))
    else
      var tables := datasets[asset];
      if Given(table) then
        if table.value in tables then Ok([table.value]) else Err(TableNotFound(table.value))
      else Ok(tables)
  }

  /** The entry names to attach to: `quote(asset)` itself for the asset kind
      (the raw asset name, not a BigQuery entry id), and for the table kind the
      entry of each selected table of dataset `asset` in the configured project. */
  function SelectEntries(cfg: Config, kind: FlatKind, asset: string, table: Option<string>, datasets: Datasets)
    : (r: Result<seq<string>, Halt>)
    ensures kind == AssetEntry ==> r.Ok? && |r.value| == 1 && EntryIdOf(cfg, r.value[0]) == Some(asset)
    ensures kind == AssetEntry ==> r.value[0] == EntriesPrefix(cfg) + Quote(asset)
    ensures kind == TableEntry ==> (r.Err? <==> SelectTables(asset, table, datasets).Err?)
    ensures kind == TableEntry && r.Ok? ==>
              var ts := SelectTables(asset, table, datasets).value;
              && |r.value| == |ts|
              && (forall i :: 0 <= i < |ts| ==> EntryIdOf(cfg, r.value[i]) == Some(TableEntryId(cfg.project, asset, ts[i])))
              && forall i :: 0 <= i < |ts| ==> r.value[i] == EntriesPrefix(cfg) + Quote(TableEntryId(cfg.project, asset, ts[i]))
  {
    if kind == AssetEntry then Ok([EntryName(cfg, asset)])
    else
      match SelectTables(asset, table, datasets)
      case Err(e) => Err(e)
      case Ok(ts) => Ok(seq(|ts|, i requires 0 <= i < |ts| => EntryName(cfg, TableEntryId(cfg.project, asset, ts[i]))))
  }

  /** `c` attaches the resolved aspects to the entry `name`: it is sent to the
      entry's URL, and its body holds exactly `name`, naming the entry, and
      `aspects`: it never targets a column. */
  predicate CallFor(cfg: Config, ids: seq<string>, doc: Catalog, name: string, c: Call)
    requires forall a :: a in ids ==> a in doc
  {
    && c.url == cfg.baseUrl + "/" + name
    && c.body.JObject?
    && Get(c.body.members, "name") == Some(JString(name))
    && Get(c.body.members, "aspects") == Some(JObject(AspectsPayload(cfg, ids, doc)))
    && Get(c.body.members, "target").None?
    && Keys(c.body.members) == ["name", "aspects"]
  }

  /** One call per entry name, in order. */
  function EntryCalls(cfg: Config, ids: seq<string>, doc: Catalog, names: seq<string>): (calls: seq<Call>)
    requires forall a :: a in ids ==> a in doc
    ensures |calls| == |names|
    ensures forall i :: 0 <= i < |names| ==> CallFor(cfg, ids, doc, names[i], calls[i])
  {
    seq(|names|, i requires 0 <= i < |names| => AttachCall(cfg, ids, doc, names[i], None))
  }

  /** The run: a resolution error or a missing dataset or table stops it with
      no call; otherwise one call per selected entry, in order. */
  function Run(cfg: Config, kind: FlatKind, asset: string, table: Option<string>, selection: string,
               groups: GroupTable, doc: Catalog, datasets: Datasets): (o: Outcome<Halt>)
    ensures o.halt.Some? ==> o.calls == []
    ensures Resolve(selection, groups, doc).Err? ==>
              o.halt == Some(Rejected(Resolve(selection, groups, doc).error))
    ensures Resolve(selection, groups, doc).Ok? ==>
              var ids, sel := Resolve(selection, groups, doc).value, SelectEntries(cfg, kind, asset, table, datasets);
              && (o.halt.None? <==> sel.Ok?)
              && (sel.Err? ==> o.halt == Some(sel.error))
              && (sel.Ok? ==>
                    && |o.calls| == |sel.value|
                    && forall i :: 0 <= i < |o.calls| ==> CallFor(cfg, ids, doc, sel.value[i], o.calls[i]))
  {
    match Resolve(selection, groups, doc)
    case Err(e) => Outcome([], Some(Rejected(e)))
    case Ok(ids) =>
      match SelectEntries(cfg, kind, asset, table, datasets)
      case Err(h) => Outcome([], Some(h))
      case Ok(names) => Outcome(EntryCalls(cfg, ids, doc, names), None)
  }

  /** The asset kind makes exactly one call, to the entry named by the quoted
      asset name, whatever BigQuery lists. */
  lemma AssetKindSingleCall(cfg: Config, asset: string, table: Option<string>, selection: string,
                            groups: GroupTable, doc: Catalog, datasets: Datasets)
    requires Resolve(selection, groups, doc).Ok?
    ensures var o := Run(cfg, AssetEntry, asset, table, selection, groups, doc, datasets);
            && o.halt.None? && |o.calls| == 1
            && o.calls[0].url == cfg.baseUrl + "/" + (EntriesPrefix(cfg) + Quote(asset))
  {
    var o := Run(cfg, AssetEntry, asset, table, selection, groups, doc, datasets);
    var ids := Resolve(selection, groups, doc).value;
    var name := SelectEntries(cfg, AssetEntry, asset, table, datasets).value[0];
    assert name == EntriesPrefix(cfg) + Quote(asset);
    assert CallFor(cfg, ids, doc, name, o.calls[0]);
  }

  /** A `--table` the dataset does not list, or a dataset BigQuery does not
      find, fails the table kind with no call at all. */
  lemma MissingTableIsFatal(cfg: Config, asset: string, table: Option<string>, selection: string,
                            groups: GroupTable, doc: Catalog, datasets: Datasets)
    requires asset !in datasets || (Given(table) && table.value !in datasets[asset])
    ensures var o := Run(cfg, TableEntry, asset, table, selection, groups, doc, datasets);
            && o.calls == [] && o.halt.Some?
            && Verdict(o, []) == Failure
  {
  }

  /** The run succeeds exactly when the selection resolves, the entries are
      found, and some call answers 200; it then reports how many did. */
  lemma RunVerdict(cfg: Config, kind: FlatKind, asset: string, table: Option<string>, selection: string,
                   groups: GroupTable, doc: Catalog, datasets: Datasets, statuses: seq<int>)
    requires |statuses| == |Run(cfg, kind, asset, table, selection, groups, doc, datasets).calls|
    ensures var e := Verdict(Run(cfg, kind, asset, table, selection, groups, doc, datasets), statuses);
            && (e.Success? <==>
                  && Resolve(selection, groups, doc).Ok?
                  && SelectEntries(cfg, kind, asset, table, datasets).Ok?
                  && exists i :: 0 <= i < |statuses| && statuses[i] == 200)
            && (e.Success? ==> e.attached == Successes(statuses))
  {
    SuccessesAreIndices(statuses);
  }
}

=== FILE: hierarchy_walk.dfy ===
/** The depth-first walk of `aspect_attach_column.py` over a lake: zones, the
    assets of each zone, the tables of each BigQuery dataset asset, and the
    columns of each table. The listings the script fetches are given as an
    immutable value; the walk yields the targets to attach to, in the order
    the script reaches them, and the fatal error that ends it early, if any. */
module HierarchyWalk {
  import opened Wrappers
  import opened Text
  import opened EntryNames
  import opened Attachment

  /** `--entry_type`. */
  datatype EntryKind = AssetKind | TableKind | ColumnKind

  /** The parsed command-line selection. */
  datatype Scope = Scope(
    kind: EntryKind,
    asset: Option<string>,     // --asset
    table: Option<string>,     // --table
    column: Option<string>,    // --column
    includeColumns: string)    // --include_columns

  /** An asset's `resourceSpec`: its `type` and its `resource` path, each possibly absent. */
  datatype ResourceSpec = ResourceSpec(resourceType: Option<string>, resource: Option<string>)

  /** One entry of a zone's asset listing; `spec` is absent when the asset has no `resourceSpec`. */
  datatype Asset = Asset(name: string, spec: Option<ResourceSpec>)

  /** One entry of the lake's zone listing, with the outcome of listing its
      assets: `None` when that listing answered with an error status. */
  datatype Zone = Zone(name: string, assets: Option<seq<Asset>>)

  /** A BigQuery table as `list_tables` lists it, with what `get_table` answers
      for it: the names of its schema fields in schema order, or `None` when
      that call fails. */
  datatype Table = Table(id: string, schema: Option<seq<string>>)

  /** The tables BigQuery lists for each (project, dataset); a dataset missing
      from the map answers `NotFound`. */
  type Listings = map<(string, string), seq<Table>>

  /** The resource type whose tables are walked. */
  const BigQueryDataset := "BIGQUERY_DATASET"

  /** The errors that end the walk: an error status from a listing
      (`raise_for_status`), the `KeyError` of an asset without `resourceSpec`,
      the column kind reaching a table without `--column`, and a failing
      `get_table`, which the script does not catch. */
  datatype Fatal =
    | ZoneListingFailed
    | AssetListingFailed(zone: string)
    | MissingResourceSpec(asset: string)
    | MissingColumn
    | SchemaLookupFailed(table: string)

  /** Something to attach the aspects to: a dataset asset, a table of it, or a
      column of that table, with the asset it was reached from. */
  datatype Target = Target(asset: Asset, project: string, dataset: string, table: Option<Table>, column: Option<string>)

  /** The targets in the order they are reached, and the fatal error that
      stopped the walk after them, if any. */
  datatype Plan = Plan(targets: seq<Target>, stop: Option<Fatal>)

  const Nothing := Plan([], None)

  /** `a` followed by `b`, unless `a` already ended the run. */
  function Then(a: Plan, b: Plan): (r: Plan)
    ensures a.stop.Some? ==> r == a
    ensures a.stop.None? ==> r.targets == a.targets + b.targets && r.stop == b.stop
  {
    if a.stop.Some? then a else Plan(a.targets + b.targets, b.stop)
  }

  lemma ThenAssociative(a: Plan, b: Plan, c: Plan)
    ensures Then(Then(a, b), c) == Then(a, Then(b, c))
  {
    if a.stop.None? && b.stop.None? {
      assert (a.targets + b.targets) + c.targets == a.targets + (b.targets + c.targets);
    }
  }

  lemma ThenNothing(a: Plan)
    ensures Then(Nothing, a) == a && (a.stop.None? ==> Then(a, Nothing) == a)
  {
    assert [] + a.targets == a.targets;
    assert a.targets + [] == a.targets;
  }

  // ---------------------------------------------------------------- tables and columns

  /** `args.include_columns.lower() == "true"` (letters folded as ASCII). */
  predicate IncludeColumns(flag: string) {
    var lower := seq(|flag|, i requires 0 <= i < |flag| =>
                   if 'A' <= flag[i] <= 'Z' then (flag[i] as int + 32) as char else flag[i]);
    lower == "true"
  }

  /** The column a target may carry in the scope's kind: none for a table
      target, a schema field for the fan-out, `--column` for the column kind. */
  predicate ColumnFits(scope: Scope, t: Table, column: Option<string>) {
    match scope.kind
    case AssetKind => column.None?
    case TableKind =>
      column.None? || (IncludeColumns(scope.includeColumns) && t.schema.Some? && column.value in t.schema.value)
    case ColumnKind => Given(scope.column) && column == scope.column
  }

  /** `x` is a target for table `t` of dataset `(p, d)` reached from asset `a`. */
  predicate TableTarget(scope: Scope, a: Asset, p: string, d: string, t: Table, x: Target) {
    && x.asset == a && x.project == p && x.dataset == d && x.table == Some(t)
    && PassesTableFilter(scope, t)
    && ColumnFits(scope, t, x.column)
  }

  /** One target per schema field, in schema order. */
  function ColumnTargets(a: Asset, p: string, d: string, t: Table, fields: seq<string>): (xs: seq<Target>)
    ensures |xs| == |fields|
    ensures forall i :: 0 <= i < |xs| ==> xs[i] == Target(a, p, d, Some(t), Some(fields[i]))
  {
    seq(|fields|, i requires 0 <= i < |fields| => Target(a, p, d, Some(t), Some(fields[i])))
  }

  /** The table passes `--table`: the flag is absent or names it. */
  predicate PassesTableFilter(scope: Scope, t: Table) {
    !Given(scope.table) || t.id == scope.table.value
  }

  /** One table of a listed dataset: skipped unless it passes `--table`; in the
      table kind, the table itself and, with `--include_columns`, each schema
      field after it, or the fatal error after the table when `get_table`
      fails; in the column kind, the `--column` column, or the fatal error when
      `--column` is missing. Only table and column kinds list tables. */
  function WalkTable(scope: Scope, a: Asset, p: string, d: string, t: Table): (r: Plan)
    requires scope.kind != AssetKind
    ensures !PassesTableFilter(scope, t) ==> r == Nothing
    ensures r.stop.Some? <==>
              && PassesTableFilter(scope, t)
              && ((scope.kind == ColumnKind && !Given(scope.column)) ||
                  (scope.kind == TableKind && IncludeColumns(scope.includeColumns) && t.schema.None?))
    ensures scope.kind == ColumnKind && r.stop.Some? ==> r == Plan([], Some(MissingColumn))
    ensures scope.kind == ColumnKind && Given(scope.column) && PassesTableFilter(scope, t) ==>
              r == Plan([Target(a, p, d, Some(t), scope.column)], None)
    ensures scope.kind == TableKind && r.stop.Some? ==>
              r == Plan([Target(a, p, d, Some(t), None)], Some(SchemaLookupFailed(t.id)))
    ensures scope.kind == TableKind && PassesTableFilter(scope, t) ==>
              && |r.targets| == (if IncludeColumns(scope.includeColumns) && t.schema.Some? then 1 + |t.schema.value| else 1)
              && r.targets[0] == Target(a, p, d, Some(t), None)
              && forall i :: 1 <= i < |r.targets| ==> r.targets[i] == Target(a, p, d, Some(t), Some(t.schema.value[i - 1]))
    ensures forall x :: x in r.targets ==> TableTarget(scope, a, p, d, t, x)
  {
    if !PassesTableFilter(scope, t) then Nothing
    else match scope.kind
      case TableKind =>
        var self := Target(a, p, d, Some(t), None);
        if !IncludeColumns(scope.includeColumns) then Plan([self], None)
        else if t.schema.None? then Plan([self], Some(SchemaLookupFailed(t.id)))
        else
          var columns := ColumnTargets(a, p, d, t, t.schema.value);
          var xs := [self] + columns;
          assert forall i :: 1 <= i < |xs| ==> xs[i] == columns[i - 1];
          Plan(xs, None)
      case ColumnKind =>
        if Given(scope.column) then Plan([Target(a, p, d, Some(t), scope.column)], None)
        else Plan([], Some(MissingColumn))
  }

  /** The tables of one dataset, in listing order. */
  function WalkTables(scope: Scope, a: Asset, p: string, d: string, ts: seq<Table>): (r: Plan)
    requires scope.kind != AssetKind
    ensures r.stop.Some? && scope.kind == ColumnKind ==> r == Plan([], Some(MissingColumn)) && !Given(scope.column)
    ensures r.stop.Some? && scope.kind == TableKind ==>
              IncludeColumns(scope.includeColumns) && r.stop.value.SchemaLookupFailed?
    ensures scope.kind == ColumnKind && !Given(scope.column) ==> r.targets == []
    ensures forall x :: x in r.targets ==>
              x.table.Some? && x.table.value in ts && TableTarget(scope, a, p, d, x.table.value, x)
  {
    if |ts| == 0 then Nothing
    else
      var first := WalkTable(scope, a, p, d, ts[0]);
      var rest := WalkTables(scope, a, p, d, ts[1..]);
      assert forall t :: t in ts[1..] ==> t in ts;
      Then(first, rest)
  }

  // ---------------------------------------------------------------- assets

  /** `x` is a target the walk may reach from asset `a`: the asset passes
      `--asset`, its resource parses to the target's dataset, and a table or
      column target comes from a listed table of a BigQuery dataset asset. */
  predicate AssetTarget(scope: Scope, bq: Listings, a: Asset, x: Target) {
    && x.asset == a
    && (Given(scope.asset) ==> LastSegment(a.name) == scope.asset.value)
    && a.spec.Some? && Given(a.spec.value.resource)
    && ParseResource(a.spec.value.resource.value) == Some((x.project, x.dataset))
    && (scope.kind == AssetKind ==> x.table.None? && x.column.None?)
    && (scope.kind != AssetKind ==>
          && a.spec.value.resourceType == Some(BigQueryDataset)
          && (x.project, x.dataset) in bq
          && x.table.Some? && x.table.value in bq[(x.project, x.dataset)]
          && TableTarget(scope, a, x.project, x.dataset, x.table.value, x))
  }

  /** The asset is kept by `--asset`: the flag is absent or names the last segment. */
  predicate PassesAssetFilter(scope: Scope, a: Asset) {
    !Given(scope.asset) || LastSegment(a.name) == scope.asset.value
  }

  /** The asset's resource path parses to `(project, dataset)`. */
  predicate ParsesTo(a: Asset, p: string, d: string) {
    a.spec.Some? && Given(a.spec.value.resource) && ParseResource(a.spec.value.resource.value) == Some((p, d))
  }

  /** One asset of a zone: skipped by `--asset`; fatal without `resourceSpec`;
      skipped when the resource is missing, empty or not four segments once the
      service prefix is removed; otherwise the dataset itself in the asset
      kind, whatever the asset's type, and the dataset's tables in the other
      kinds when the asset is a BigQuery dataset that BigQuery finds. */
  function WalkAsset(scope: Scope, bq: Listings, a: Asset): (r: Plan)
    ensures !PassesAssetFilter(scope, a) ==> r == Nothing
    ensures PassesAssetFilter(scope, a) && a.spec.None? ==> r == Plan([], Some(MissingResourceSpec(a.name)))
    ensures a.spec.Some? && !(exists p, d :: ParsesTo(a, p, d)) ==> r == Nothing
    ensures (scope.kind != AssetKind && a.spec.Some? && a.spec.value.resourceType != Some(BigQueryDataset))
              ==> r == Nothing
    ensures scope.kind != AssetKind && a.spec.Some? && a.spec.value.resourceType == Some(BigQueryDataset) ==>
              forall p, d :: ParsesTo(a, p, d) && (p, d) !in bq ==> r == Nothing
    ensures forall p, d :: PassesAssetFilter(scope, a) && ParsesTo(a, p, d) ==>
              && (scope.kind == AssetKind ==> r == Plan([Target(a, p, d, None, None)], None))
              && (scope.kind != AssetKind && a.spec.value.resourceType == Some(BigQueryDataset) && (p, d) in bq ==>
                    r == WalkTables(scope, a, p, d, bq[(p, d)]))
    ensures r.stop.Some? && !r.stop.value.SchemaLookupFailed? ==> r.targets == []
    ensures forall x :: x in r.targets ==> AssetTarget(scope, bq, a, x)
  {
    if !PassesAssetFilter(scope, a) then Nothing
    else if a.spec.None? then Plan([], Some(MissingResourceSpec(a.name)))
    else
      var resource := a.spec.value.resource;
      if !Given(resource) then Nothing
      else match ParseResource(resource.value)
        case None => Nothing
        case Some((p, d)) =>
          assert ParsesTo(a, p, d);
          if scope.kind == AssetKind then Plan([Target(a, p, d, None, None)], None)
          else if a.spec.value.resourceType == Some(BigQueryDataset) && (p, d) in bq then
            WalkTables(scope, a, p, d, bq[(p, d)])
          else Nothing
  }

  /** The assets of one zone, in listing order. */
  function WalkAssets(scope: Scope, bq: Listings, assets: seq<Asset>): (r: Plan)
    ensures forall x :: x in r.targets ==> x.asset in assets && AssetTarget(scope, bq, x.asset, x)
  {
    if |assets| == 0 then Nothing
    else
      var rest := WalkAssets(scope, bq, assets[1..]);
      assert forall b :: b in assets[1..] ==> b in assets;
      Then(WalkAsset(scope, bq, assets[0]), rest)
  }

  // ---------------------------------------------------------------- zones and the lake

  /** Every asset of the zones whose asset listing succeeded, zone by zone. */
  function ListedAssets(zones: seq<Zone>): seq<Asset> {
    if |zones| == 0 then []
    else (if zones[0].assets.Some? then zones[0].assets.value else []) + ListedAssets(zones[1..])
  }

  /** One zone: fatal when its asset listing failed, otherwise its assets. */
  function WalkZone(scope: Scope, bq: Listings, z: Zone): (r: Plan)
    ensures z.assets.None? ==> r == Plan([], Some(AssetListingFailed(z.name)))
    ensures forall x :: x in r.targets ==> z.assets.Some? && x.asset in z.assets.value && AssetTarget(scope, bq, x.asset, x)
  {
    if z.assets.None? then Plan([], Some(AssetListingFailed(z.name)))
    else WalkAssets(scope, bq, z.assets.value)
  }

  /** The zones, in listing order. */
  function WalkZones(scope: Scope, bq: Listings, zones: seq<Zone>): (r: Plan)
    ensures forall x :: x in r.targets ==> x.asset in ListedAssets(zones) && AssetTarget(scope, bq, x.asset, x)
  {
    if |zones| == 0 then Nothing
    else
      var first := WalkZone(scope, bq, zones[0]);
      var rest := WalkZones(scope, bq, zones[1..]);
      var head := if zones[0].assets.Some? then zones[0].assets.value else [];
      assert ListedAssets(zones) == head + ListedAssets(zones[1..]);
      Then(first, rest)
  }

  /** The whole lake: fatal when the zone listing failed, otherwise its zones.
      Every target comes from a listed asset and is admissible for the scope. */
  function WalkLake(scope: Scope, bq: Listings, zones: Option<seq<Zone>>): (r: Plan)
    ensures zones.None? ==> r == Plan([], Some(ZoneListingFailed))
    ensures forall x :: x in r.targets ==>
              zones.Some? && x.asset in ListedAssets(zones.value) && AssetTarget(scope, bq, x.asset, x)
  {
    if zones.None? then Plan([], Some(ZoneListingFailed))
    else WalkZones(scope, bq, zones.value)
  }

  // ---------------------------------------------------------------- completeness

  /** A walk of one table that does not stop reaches every target the scope
      admits for that table. */
  lemma WalkTableComplete(scope: Scope, a: Asset, p: string, d: string, t: Table, x: Target)
    requires scope.kind != AssetKind
    requires WalkTable(scope, a, p, d, t).stop.None? && TableTarget(scope, a, p, d, t, x)
    ensures x in WalkTable(scope, a, p, d, t).targets
  {
    var r := WalkTable(scope, a, p, d, t);
    if x.column.None? {
      assert x == r.targets[0];
    } else if scope.kind == TableKind {
      var fields := t.schema.value;
      var i :| 0 <= i < |fields| && fields[i] == x.column.value;
      assert x == r.targets[i + 1];
    } else {
      assert x == r.targets[0];
    }
  }

  /** A walk of a dataset's tables that does not stop reaches every admitted
      target of every listed table. */
  lemma {:induction false} WalkTablesComplete(scope: Scope, a: Asset, p: string, d: string, ts: seq<Table>, x: Target)
    requires scope.kind != AssetKind
    requires WalkTables(scope, a, p, d, ts).stop.None?
    requires x.table.Some? && x.table.value in ts && TableTarget(scope, a, p, d, x.table.value, x)
    ensures x in WalkTables(scope, a, p, d, ts).targets
  {
    var first, rest := WalkTable(scope, a, p, d, ts[0]), WalkTables(scope, a, p, d, ts[1..]);
    assert first.stop.None? && rest.stop.None?;
    if x.table.value == ts[0] {
      WalkTableComplete(scope, a, p, d, ts[0], x);
    } else {
      assert x.table.value in ts[1..];
      WalkTablesComplete(scope, a, p, d, ts[1..], x);
    }
  }

  /** A walk of one asset that does not stop reaches every target the scope
      admits for that asset. */
  lemma WalkAssetComplete(scope: Scope, bq: Listings, a: Asset, x: Target)
    requires WalkAsset(scope, bq, a).stop.None? && AssetTarget(scope, bq, a, x)
    ensures x in WalkAsset(scope, bq, a).targets
  {
    var p, d := x.project, x.dataset;
    assert PassesAssetFilter(scope, a) && ParsesTo(a, p, d);
    if scope.kind == AssetKind {
      assert x == Target(a, p, d, None, None);
    } else {
      WalkTablesComplete(scope, a, p, d, bq[(p, d)], x);
    }
  }

  /** The same for the assets of one zone. */
  lemma {:induction false} WalkAssetsComplete(scope: Scope, bq: Listings, assets: seq<Asset>, x: Target)
    requires WalkAssets(scope, bq, assets).stop.None?
    requires x.asset in assets && AssetTarget(scope, bq, x.asset, x)
    ensures x in WalkAssets(scope, bq, assets).targets
  {
    var first, rest := WalkAsset(scope, bq, assets[0]), WalkAssets(scope, bq, assets[1..]);
    assert first.stop.None? && rest.stop.None?;
    if x.asset == assets[0] {
      WalkAssetComplete(scope, bq, assets[0], x);
    } else {
      assert x.asset in assets[1..];
      WalkAssetsComplete(scope, bq, assets[1..], x);
    }
  }

  /** The same for a run of zones. */
  lemma {:induction false} WalkZonesComplete(scope: Scope, bq: Listings, zones: seq<Zone>, x: Target)
    requires WalkZones(scope, bq, zones).stop.None?
    requires x.asset in ListedAssets(zones) && AssetTarget(scope, bq, x.asset, x)
    ensures x in WalkZones(scope, bq, zones).targets
  {
    var first, rest := WalkZone(scope, bq, zones[0]), WalkZones(scope, bq, zones[1..]);
    assert first.stop.None? && rest.stop.None?;
    var head := zones[0].assets.value;
    assert ListedAssets(zones) == head + ListedAssets(zones[1..]);
    if x.asset in head {
      WalkAssetsComplete(scope, bq, head, x);
    } else {
      WalkZonesComplete(scope, bq, zones[1..], x);
    }
  }

  /** A walk of the lake that runs to the end targets exactly what the scope
      admits: every listed asset that passes `--asset` and parses, and, in the
      table and column kinds, every listed table of such a BigQuery dataset
      asset that passes `--table`, with the columns the kind asks for. */
  lemma WalkLakeExact(scope: Scope, bq: Listings, zones: Option<seq<Zone>>)
    requires WalkLake(scope, bq, zones).stop.None?
    ensures zones.Some?
    ensures forall x :: x in WalkLake(scope, bq, zones).targets <==>
              x.asset in ListedAssets(zones.value) && AssetTarget(scope, bq, x.asset, x)
  {
    forall x: Target | x.asset in ListedAssets(zones.value) && AssetTarget(scope, bq, x.asset, x)
      ensures x in WalkLake(scope, bq, zones).targets
    {
      WalkZonesComplete(scope, bq, zones.value, x);
    }
  }

  // ---------------------------------------------------------------- order

  /** Walking two runs of zones one after the other is walking them in turn:
      every target of an earlier zone precedes every target of a later one. */
  lemma {:induction false} WalkZonesAppend(scope: Scope, bq: Listings, zs1: seq<Zone>, zs2: seq<Zone>)
    ensures WalkZones(scope, bq, zs1 + zs2) == Then(WalkZones(scope, bq, zs1), WalkZones(scope, bq, zs2))
  {
    if |zs1| == 0 {
      assert zs1 + zs2 == zs2;
      ThenNothing(WalkZones(scope, bq, zs2));
    } else {
      assert (zs1 + zs2)[0] == zs1[0] && (zs1 + zs2)[1..] == zs1[1..] + zs2;
      WalkZonesAppend(scope, bq, zs1[1..], zs2);
      ThenAssociative(WalkZone(scope, bq, zs1[0]), WalkZones(scope, bq, zs1[1..]), WalkZones(scope, bq, zs2));
    }
  }

  /** The same for the tables of one dataset. */
  lemma {:induction false} WalkTablesAppend(scope: Scope, a: Asset, p: string, d: string, ts1: seq<Table>, ts2: seq<Table>)
    requires scope.kind != AssetKind
    ensures WalkTables(scope, a, p, d, ts1 + ts2) == Then(WalkTables(scope, a, p, d, ts1), WalkTables(scope, a, p, d, ts2))
  {
    if |ts1| == 0 {
      assert ts1 + ts2 == ts2;
      ThenNothing(WalkTables(scope, a, p, d, ts2));
    } else {
      assert (ts1 + ts2)[0] == ts1[0] && (ts1 + ts2)[1..] == ts1[1..] + ts2;
      WalkTablesAppend(scope, a, p, d, ts1[1..], ts2);
      ThenAssociative(WalkTable(scope, a, p, d, ts1[0]), WalkTables(scope, a, p, d, ts1[1..]), WalkTables(scope, a, p, d, ts2));
    }
  }

  /** The same for the assets of one zone. */
  lemma {:induction false} WalkAssetsAppend(scope: Scope, bq: Listings, as1: seq<Asset>, as2: seq<Asset>)
    ensures WalkAssets(scope, bq, as1 + as2) == Then(WalkAssets(scope, bq, as1), WalkAssets(scope, bq, as2))
  {
    if |as1| == 0 {
      assert as1 + as2 == as2;
      ThenNothing(WalkAssets(scope, bq, as2));
    } else {
      assert (as1 + as2)[0] == as1[0] && (as1 + as2)[1..] == as1[1..] + as2;
      WalkAssetsAppend(scope, bq, as1[1..], as2);
      ThenAssociative(WalkAsset(scope, bq, as1[0]), WalkAssets(scope, bq, as1[1..]), WalkAssets(scope, bq, as2));
    }
  }

  // ---------------------------------------------------------------- asset kind and type

  /** The asset kind never looks at the asset's type: changing it changes
      nothing but the asset the targets record. */
  lemma AssetKindIgnoresType(scope: Scope, bq: Listings, a: Asset, ty: Option<string>)
    requires scope.kind == AssetKind && a.spec.Some?
    ensures var a' := a.(spec := Some(a.spec.value.(resourceType := ty)));
            var r, r' := WalkAsset(scope, bq, a), WalkAsset(scope, bq, a');
            && r'.stop == r.stop && |r'.targets| == |r.targets|
            && forall i :: 0 <= i < |r.targets| ==> r'.targets[i] == r.targets[i].(asset := a')
  {
  }

  // ---------------------------------------------------------------- the lazy column check

  /** What the walk without `--column` makes of the walk with it: the first
      column target becomes the fatal error, and a walk that reaches no table
      is unchanged. */
  function WithoutColumn(p: Plan): Plan {
    if |p.targets| > 0 then Plan([], Some(MissingColumn)) else p
  }

  lemma WithoutColumnThen(a: Plan, b: Plan)
    ensures WithoutColumn(Then(a, b)) == Then(WithoutColumn(a), WithoutColumn(b))
  {
    if a.stop.None? && |a.targets| == 0 {
      assert a.targets + b.targets == b.targets;
      assert [] + WithoutColumn(b).targets == WithoutColumn(b).targets;
    }
  }

  /** The column kind with `--column` given and with it missing. */
  predicate ColumnPair(given: Scope, missing: Scope) {
    && given.kind == ColumnKind && Given(given.column)
    && missing == given.(column := missing.column) && !Given(missing.column)
  }

  lemma WalkTableWithoutColumn(given: Scope, missing: Scope, a: Asset, p: string, d: string, t: Table)
    requires ColumnPair(given, missing)
    ensures WalkTable(missing, a, p, d, t) == WithoutColumn(WalkTable(given, a, p, d, t))
  {
  }

  lemma {:induction false} WalkTablesWithoutColumn(given: Scope, missing: Scope, a: Asset, p: string, d: string, ts: seq<Table>)
    requires ColumnPair(given, missing)
    ensures WalkTables(missing, a, p, d, ts) == WithoutColumn(WalkTables(given, a, p, d, ts))
  {
    if |ts| > 0 {
      WalkTableWithoutColumn(given, missing, a, p, d, ts[0]);
      WalkTablesWithoutColumn(given, missing, a, p, d, ts[1..]);
      WithoutColumnThen(WalkTable(given, a, p, d, ts[0]), WalkTables(given, a, p, d, ts[1..]));
    }
  }

  lemma WalkAssetWithoutColumn(given: Scope, missing: Scope, bq: Listings, a: Asset)
    requires ColumnPair(given, missing)
    ensures WalkAsset(missing, bq, a) == WithoutColumn(WalkAsset(given, bq, a))
  {
    if PassesAssetFilter(given, a) && a.spec.Some? && Given(a.spec.value.resource) {
      match ParseResource(a.spec.value.resource.value)
      case None =>
      case Some((p, d)) =>
        if a.spec.value.resourceType == Some(BigQueryDataset) && (p, d) in bq {
          WalkTablesWithoutColumn(given, missing, a, p, d, bq[(p, d)]);
        }
    }
  }

  lemma {:induction false} WalkAssetsWithoutColumn(given: Scope, missing: Scope, bq: Listings, assets: seq<Asset>)
    requires ColumnPair(given, missing)
    ensures WalkAssets(missing, bq, assets) == WithoutColumn(WalkAssets(given, bq, assets))
  {
    if |assets| > 0 {
      WalkAssetWithoutColumn(given, missing, bq, assets[0]);
      WalkAssetsWithoutColumn(given, missing, bq, assets[1..]);
      WithoutColumnThen(WalkAsset(given, bq, assets[0]), WalkAssets(given, bq, assets[1..]));
    }
  }

  lemma {:induction false} WalkZonesWithoutColumn(given: Scope, missing: Scope, bq: Listings, zones: seq<Zone>)
    requires ColumnPair(given, missing)
    ensures WalkZones(missing, bq, zones) == WithoutColumn(WalkZones(given, bq, zones))
  {
    if |zones| > 0 {
      if zones[0].assets.Some? {
        WalkAssetsWithoutColumn(given, missing, bq, zones[0].assets.value);
      }
      WalkZonesWithoutColumn(given, missing, bq, zones[1..]);
      WithoutColumnThen(WalkZone(given, bq, zones[0]), WalkZones(given, bq, zones[1..]));
    }
  }

  /** In the column kind a missing `--column` is noticed only on reaching the
      first table that passes the filters: the walk then stops with nothing
      attached, and a walk that reaches no such table runs exactly as if the
      column had been given. */
  lemma ColumnCheckedLazily(given: Scope, missing: Scope, bq: Listings, zones: Option<seq<Zone>>)
    requires ColumnPair(given, missing)
    ensures var w, m := WalkLake(given, bq, zones), WalkLake(missing, bq, zones);
            && (|w.targets| == 0 ==> m == w)
            && (|w.targets| > 0 ==> m == Plan([], Some(MissingColumn)))
  {
    if zones.Some? {
      WalkZonesWithoutColumn(given, missing, bq, zones.value);
    }
  }
}

=== FILE: json.dfy ===
/** JSON values as the scripts handle them. Objects keep their members in
    insertion order, as a Python `dict` does when `json.dumps` writes it. */
module Json {
  import opened Wrappers

  datatype Json =
    | JNull
    | JBool(b: bool)
    | JNumber(literal: string)   // the number's text, never interpreted
    | JString(s: string)
    | JArray(items: seq<Json>)
    | JObject(members: seq<(string, Json)>)

  function Keys(members: seq<(string, Json)>): (ks: seq<string>)
    ensures |ks| == |members|
    ensures forall i :: 0 <= i < |members| ==> ks[i] == members[i].0
  {
    if |members| == 0 then [] else [members[0].0] + Keys(members[1..])
  }

  /** The value of the first member named `key`, as `dict[key]` reads it. */
  function Get(members: seq<(string, Json)>, key: string): (r: Option<Json>)
    ensures r.None? <==> key !in Keys(members)
    ensures r.Some? ==> (key, r.value) in members
  {
    if |members| == 0 then None
    else if members[0].0 == key then Some(members[0].1)
    else Get(members[1..], key)
  }
}

=== FILE: percent_encoding.dfy ===
/** Python's `urllib.parse.quote(s)` with its default `safe='/'`: the string is
    encoded as UTF-8 and every byte outside the unreserved set of section 2.3 of
    RFC 3986 (letters, digits, `-._~`) and `/` becomes `%XX` with upper-case hex
    digits (section 2.1 of RFC 3986). The decoders are the partners used to
    state the round trip. */
module PercentEncoding {
  import opened Wrappers

  type Byte = b: int | 0 <= b < 256

  // ---------------------------------------------------------------- UTF-8

  /** The UTF-8 encoding of one Unicode scalar value (section 3 of RFC 3629). */
  function Utf8Char(c: char): (bs: seq<Byte>)
    ensures 1 <= |bs| <= 4
  {
    var n := c as int;
    if n < 0x80 then [n]
    else if n < 0x800 then [0xC0 + n / 64, 0x80 + n % 64]
    else if n < 0x10000 then [0xE0 + n / 64 / 64, 0x80 + n / 64 % 64, 0x80 + n % 64]
    else [0xF0 + n / 64 / 64 / 64, 0x80 + n / 64 / 64 % 64, 0x80 + n / 64 % 64, 0x80 + n % 64]
  }

  function Utf8Encode(s: string): seq<Byte> {
    if |s| == 0 then [] else Utf8Char(s[0]) + Utf8Encode(s[1..])
  }

  predicate IsContinuation(b: Byte) {
    0x80 <= b < 0xC0
  }

  /** A code point that is a Unicode scalar value, i.e. a Dafny `char`. */
  predicate IsScalar(n: int) {
    (0 <= n < 0xD800) || (0xE000 <= n < 0x110000)
  }

  /** Decodes the character at the front of `bs`, with the number of bytes it
      takes; overlong forms, surrogates and values past U+10FFFF are refused. */
  function DecodeFirst(bs: seq<Byte>): (r: Option<(char, nat)>)
    requires |bs| > 0
    ensures r.Some? ==> 1 <= r.value.1 <= |bs|
  {
    var b0: int := bs[0];
    var b1: int := if |bs| > 1 then bs[1] else 0;
    var b2: int := if |bs| > 2 then bs[2] else 0;
    var b3: int := if |bs| > 3 then bs[3] else 0;
    if b0 < 0x80 then Some((b0 as char, 1))
    else if 0xC0 <= b0 < 0xE0 then
      if |bs| < 2 || !IsContinuation(b1) then None
      else
        var n := (b0 - 0xC0) * 64 + (b1 - 0x80);
        if n < 0x80 then None else Some((n as char, 2))
    else if 0xE0 <= b0 < 0xF0 then
      if |bs| < 3 || !IsContinuation(b1) || !IsContinuation(b2) then None
      else
        var n := ((b0 - 0xE0) * 64 + (b1 - 0x80)) * 64 + (b2 - 0x80);
        if n < 0x800 || !IsScalar(n) then None else Some((n as char, 3))
    else if 0xF0 <= b0 < 0xF8 then
      if |bs| < 4 || !IsContinuation(b1) || !IsContinuation(b2) || !IsContinuation(b3) then None
      else
        var n := (((b0 - 0xF0) * 64 + (b1 - 0x80)) * 64 + (b2 - 0x80)) * 64 + (b3 - 0x80);
        if n < 0x10000 || !IsScalar(n) then None else Some((n as char, 4))
    else None
  }

  function Utf8Decode(bs: seq<Byte>): Option<string>
    decreases |bs|
  {
    if |bs| == 0 then Some("")
    else match DecodeFirst(bs)
      case None => None
      case Some((c, k)) =>
        match Utf8Decode(bs[k..])
        case None => None
        case Some(rest) => Some([c] + rest)
  }

  lemma DecodeEncodedChar(c: char, rest: seq<Byte>)
    ensures DecodeFirst(Utf8Char(c) + rest) == Some((c, |Utf8Char(c)|))
  {
    var n := c as int;
    var bs := Utf8Char(c) + rest;
    var b0: int := bs[0];
    if n < 0x80 {
    } else if n < 0x800 {
      var b1: int := bs[1];
      assert b0 == 0xC0 + n / 64 && b1 == 0x80 + n % 64;
      assert (b0 - 0xC0) * 64 + (b1 - 0x80) == n;
    } else if n < 0x10000 {
      var b1: int, b2: int := bs[1], bs[2];
      assert b0 == 0xE0 + n / 64 / 64 && b1 == 0x80 + n / 64 % 64 && b2 == 0x80 + n % 64;
      assert (b0 - 0xE0) * 64 + (b1 - 0x80) == n / 64;
      assert ((b0 - 0xE0) * 64 + (b1 - 0x80)) * 64 + (b2 - 0x80) == n;
    } else {
      var b1: int, b2: int, b3: int := bs[1], bs[2], bs[3];
      assert b0 == 0xF0 + n / 64 / 64 / 64 && b1 == 0x80 + n / 64 / 64 % 64;
      assert b2 == 0x80 + n / 64 % 64 && b3 == 0x80 + n % 64;
      assert (b0 - 0xF0) * 64 + (b1 - 0x80) == n / 64 / 64;
      assert ((b0 - 0xF0) * 64 + (b1 - 0x80)) * 64 + (b2 - 0x80) == n / 64;
      assert (((b0 - 0xF0) * 64 + (b1 - 0x80)) * 64 + (b2 - 0x80)) * 64 + (b3 - 0x80) == n;
    }
  }

  /** UTF-8 decoding undoes UTF-8 encoding. */
  lemma {:induction false} Utf8RoundTrip(s: string)
    ensures Utf8Decode(Utf8Encode(s)) == Some(s)
  {
    if |s| > 0 {
      var head := Utf8Char(s[0]);
      var bs := Utf8Encode(s);
      DecodeEncodedChar(s[0], Utf8Encode(s[1..]));
      assert bs[|head|..] == Utf8Encode(s[1..]);
      Utf8RoundTrip(s[1..]);
      assert s == [s[0]] + s[1..];
    }
  }

  lemma {:induction false} Utf8EncodeAppend(a: string, b: string)
    ensures Utf8Encode(a + b) == Utf8Encode(a) + Utf8Encode(b)
  {
    if |a| > 0 {
      assert (a + b)[0] == a[0];
      assert (a + b)[1..] == a[1..] + b;
      Utf8EncodeAppend(a[1..], b);
    } else {
      assert a + b == b;
    }
  }

  // ---------------------------------------------------------------- percent-encoding

  /** Bytes that `quote` leaves alone: letters, digits, `_.-~` and the safe `/`. */
  predicate IsSafeByte(b: Byte) {
    ('A' as int <= b <= 'Z' as int) || ('a' as int <= b <= 'z' as int)
    || ('0' as int <= b <= '9' as int)
    || b == '_' as int || b == '.' as int || b == '-' as int || b == '~' as int
    || b == '/' as int
  }

  predicate IsSafeChar(c: char) {
    c as int < 256 && IsSafeByte(c as int)
  }

  predicate IsUpperHexDigit(c: char) {
    ('0' <= c <= '9') || ('A' <= c <= 'F')
  }

  function HexDigit(v: int): (c: char)
    requires 0 <= v < 16
    ensures IsUpperHexDigit(c)
  {
    "0123456789ABCDEF"[v]
  }

  function HexValue(c: char): Option<int> {
    if '0' <= c <= '9' then Some(c as int - '0' as int)
    else if 'A' <= c <= 'F' then Some(c as int - 'A' as int + 10)
    else if 'a' <= c <= 'f' then Some(c as int - 'a' as int + 10)
    else None
  }

  function QuoteByte(b: Byte): (r: string)
    ensures |r| == 1 || |r| == 3
  {
    if IsSafeByte(b) then [b as char] else ['%', HexDigit(b / 16), HexDigit(b % 16)]
  }

  /** The characters `quote` can produce: safe characters, `%` and upper-case hex digits. */
  predicate IsQuotedChar(c: char) {
    IsSafeChar(c) || c == '%' || IsUpperHexDigit(c)
  }

  function PercentEncode(bs: seq<Byte>): (r: string)
    ensures forall k :: 0 <= k < |r| ==> IsQuotedChar(r[k])
  {
    if |bs| == 0 then ""
    else
      var head := QuoteByte(bs[0]);
      var rest := PercentEncode(bs[1..]);
      assert forall k :: 0 <= k < |head| ==> (head + rest)[k] == head[k];
      assert forall k :: |head| <= k < |head| + |rest| ==> (head + rest)[k] == rest[k - |head|];
      head + rest
  }

  /** A `%` the encoder writes always starts a complete escape with two
      upper-case hex digits: `%2f` is never produced. */
  predicate EscapesUpperCase(r: string) {
    forall k :: 0 <= k < |r| && r[k] == '%' ==>
      k + 2 < |r| && IsUpperHexDigit(r[k + 1]) && IsUpperHexDigit(r[k + 2])
  }

  lemma {:induction false} PercentEncodeEscapes(bs: seq<Byte>)
    ensures EscapesUpperCase(PercentEncode(bs))
  {
    if |bs| > 0 {
      var head := QuoteByte(bs[0]);
      var rest := PercentEncode(bs[1..]);
      PercentEncodeEscapes(bs[1..]);
      var r := head + rest;
      assert r == PercentEncode(bs);
      forall k | 0 <= k < |r| && r[k] == '%'
        ensures k + 2 < |r| && IsUpperHexDigit(r[k + 1]) && IsUpperHexDigit(r[k + 2])
      {
        if k < |head| {
          assert !IsSafeByte(bs[0]) && k == 0;
        } else {
          assert r[k] == rest[k - |head|];
          assert r[k + 1] == rest[k - |head| + 1] && r[k + 2] == rest[k - |head| + 2];
        }
      }
    }
  }

  /** Python's `urllib.parse.quote(s)` with the default `safe='/'`. */
  function Quote(s: string): (r: string)
    ensures forall k :: 0 <= k < |r| ==> IsQuotedChar(r[k])
  {
    PercentEncode(Utf8Encode(s))
  }

  /** Every escape in a quoted string is upper-case, as `quote` writes it. */
  lemma QuoteEscapes(s: string)
    ensures EscapesUpperCase(Quote(s))
  {
    PercentEncodeEscapes(Utf8Encode(s));
  }

  /** Strict percent-decoding: `%` must be followed by two hex digits and every
      other character must be ASCII. */
  function PercentDecode(s: string): Option<seq<Byte>>
    decreases |s|
  {
    if |s| == 0 then Some([])
    else if s[0] == '%' then
      if |s| < 3 then None
      else match (HexValue(s[1]), HexValue(s[2]))
        case (Some(hi), Some(lo)) =>
          (match PercentDecode(s[3..])
           case None => None
           case Some(rest) => Some([hi * 16 + lo] + rest))
        case _ => None
    else if s[0] as int < 128 then
      match PercentDecode(s[1..])
      case None => None
      case Some(rest) => Some([s[0] as int] + rest)
    else None
  }

  /** Percent-decoding followed by UTF-8 decoding, the partner of `Quote`. */
  function Unquote(s: string): Option<string> {
    match PercentDecode(s)
    case None => None
    case Some(bs) => Utf8Decode(bs)
  }

  /** An upper-case hex digit reads back as its value. */
  lemma HexDigitValue(v: int)
    requires 0 <= v < 16
    ensures HexValue(HexDigit(v)) == Some(v)
  {
  }

  /** Decoding the encoding of one byte in front of `rest`. */
  lemma DecodeQuotedByte(b: Byte, rest: string)
    ensures PercentDecode(QuoteByte(b) + rest) ==
              match PercentDecode(rest)
              case None => None
              case Some(tail) => Some([b] + tail)
  {
    if IsSafeByte(b) {
      DecodeSafeByte(b, rest);
    } else {
      DecodeEscapedByte(b, rest);
    }
  }

  lemma DecodeSafeByte(b: Byte, rest: string)
    requires IsSafeByte(b)
    ensures PercentDecode([b as char] + rest) ==
              match PercentDecode(rest)
              case None => None
              case Some(tail) => Some([b] + tail)
  {
    var s := [b as char] + rest;
    assert s[0] == b as char && s[1..] == rest;
  }

  lemma DecodeEscapedByte(b: Byte, rest: string)
    ensures PercentDecode(['%', HexDigit(b / 16), HexDigit(b % 16)] + rest) ==
              match PercentDecode(rest)
              case None => None
              case Some(tail) => Some([b] + tail)
  {
    var hi, lo := b / 16, b % 16;
    var s := ['%', HexDigit(hi), HexDigit(lo)] + rest;
    assert s[0] == '%' && s[1] == HexDigit(hi) && s[2] == HexDigit(lo);
    assert s[3..] == rest;
    HexDigitValue(hi);
    HexDigitValue(lo);
  }

  lemma {:induction false} PercentRoundTrip(bs: seq<Byte>)
    ensures PercentDecode(PercentEncode(bs)) == Some(bs)
  {
    if |bs| > 0 {
      PercentRoundTrip(bs[1..]);
      DecodeQuotedByte(bs[0], PercentEncode(bs[1..]));
      assert bs == [bs[0]] + bs[1..];
    }
  }

  /** Unquoting recovers exactly the string that was quoted. */
  lemma QuoteRoundTrip(s: string)
    ensures Unquote(Quote(s)) == Some(s)
  {
    PercentRoundTrip(Utf8Encode(s));
    Utf8RoundTrip(s);
  }

  /** Distinct identifiers quote to distinct strings. */
  lemma QuoteInjective(s: string, t: string)
    requires Quote(s) == Quote(t)
    ensures s == t
  {
    QuoteRoundTrip(s);
    QuoteRoundTrip(t);
  }

  lemma {:induction false} PercentEncodeAppend(a: seq<Byte>, b: seq<Byte>)
    ensures PercentEncode(a + b) == PercentEncode(a) + PercentEncode(b)
  {
    if |a| > 0 {
      assert (a + b)[0] == a[0];
      assert (a + b)[1..] == a[1..] + b;
      PercentEncodeAppend(a[1..], b);
    } else {
      assert a + b == b;
    }
  }

  /** Quoting works piece by piece. */
  lemma QuoteAppend(a: string, b: string)
    ensures Quote(a + b) == Quote(a) + Quote(b)
  {
    Utf8EncodeAppend(a, b);
    PercentEncodeAppend(Utf8Encode(a), Utf8Encode(b));
  }

  /** A string made only of letters, digits, `-._~` and `/` is left unchanged. */
  lemma {:induction false} QuoteSafeIdentity(s: string)
    requires forall k :: 0 <= k < |s| ==> IsSafeChar(s[k])
    ensures Quote(s) == s
  {
    if |s| > 0 {
      assert IsSafeChar(s[0]);
      QuoteAppend([s[0]], s[1..]);
      assert [s[0]] + s[1..] == s;
      assert Utf8Encode([s[0]]) == [s[0] as int];
      QuoteSafeIdentity(s[1..]);
    }
  }
}

=== FILE: sequences.dfy ===
/** Order-preserving de-duplication, the effect of Python's
    `list(dict.fromkeys(xs))`. */
module Sequences {

  ghost predicate NoDup<T>(s: seq<T>) {
    forall i, j :: 0 <= i < j < |s| ==> s[i] != s[j]
  }

  /** `[f(x) for x in s]`. */
  function MapSeq<T, U>(f: T -> U, s: seq<T>): (r: seq<U>)
    ensures |r| == |s|
    ensures forall i :: 0 <= i < |s| ==> r[i] == f(s[i])
  {
    seq(|s|, i requires 0 <= i < |s| => f(s[i]))
  }

  lemma MapSeqAppend<T, U>(f: T -> U, a: seq<T>, b: seq<T>)
    ensures MapSeq(f, a + b) == MapSeq(f, a) + MapSeq(f, b)
  {
    var whole, left, right := MapSeq(f, a + b), MapSeq(f, a), MapSeq(f, b);
    forall i | 0 <= i < |a + b| ensures whole[i] == (left + right)[i] {
      if i < |a| {
        assert (a + b)[i] == a[i];
      } else {
        assert (a + b)[i] == b[i - |a|];
      }
    }
  }

  /** Position of the first occurrence of `x` in `s`. */
  function FirstIndex<T(==)>(s: seq<T>, x: T): (i: nat)
    requires x in s
    ensures i < |s| && s[i] == x && x !in s[..i]
  {
    if s[0] == x then 0 else 1 + FirstIndex(s[1..], x)
  }

  /** `r` lists elements of `s` in the order of their first occurrence in `s`. */
  ghost predicate InFirstOccurrenceOrder<T>(r: seq<T>, s: seq<T>) {
    && (forall k :: 0 <= k < |r| ==> r[k] in s)
    && (forall i, j :: 0 <= i < j < |r| ==> FirstIndex(s, r[i]) < FirstIndex(s, r[j]))
  }

  /** The keys of `dict.fromkeys(s)` in insertion order: a key seen again keeps
      the position it got when first inserted. */
  function Dedup<T(==,!new)>(s: seq<T>): (r: seq<T>)
    ensures NoDup(r)
    ensures forall x :: x in r <==> x in s
    ensures |r| <= |s|
    decreases |s|
  {
    if |s| == 0 then []
    else
      var init := Dedup(s[..|s| - 1]);
      var last := s[|s| - 1];
      assert forall x :: x in s <==> x in s[..|s| - 1] || x == last;
      if last in init then init else init + [last]
  }

  /** The first occurrence of an element of a prefix lies in that prefix. */
  lemma FirstIndexInPrefix<T>(s: seq<T>, n: nat, x: T)
    requires n <= |s| && x in s[..n]
    ensures FirstIndex(s, x) == FirstIndex(s[..n], x)
  {
    var i := FirstIndex(s, x);
    var j := FirstIndex(s[..n], x);
    assert s[..n][j] == s[j];
    assert s[..n][..j] == s[..j];
  }

  /** An ordering against a prefix is an ordering against the whole
      sequence, and every first index stays inside the prefix. */
  lemma OrderInPrefix<T>(s: seq<T>, n: nat, r: seq<T>)
    requires n <= |s| && InFirstOccurrenceOrder(r, s[..n])
    ensures InFirstOccurrenceOrder(r, s)
    ensures forall k :: 0 <= k < |r| ==> FirstIndex(s, r[k]) < n
  {
    forall k | 0 <= k < |r| ensures r[k] in s && FirstIndex(s, r[k]) == FirstIndex(s[..n], r[k]) {
      FirstIndexInPrefix(s, n, r[k]);
    }
  }

  lemma FirstIndexOfNewLast<T>(s: seq<T>)
    requires |s| > 0 && s[|s| - 1] !in s[..|s| - 1]
    ensures FirstIndex(s, s[|s| - 1]) == |s| - 1
  {
    assert forall j :: 0 <= j < |s| - 1 ==> s[j] == s[..|s| - 1][j];
  }

  /** An element first seen at the end goes after everything seen before it. */
  lemma OrderAppendNew<T>(s: seq<T>, r: seq<T>)
    requires |s| > 0 && InFirstOccurrenceOrder(r, s)
    requires forall k :: 0 <= k < |r| ==> FirstIndex(s, r[k]) < |s| - 1
    requires s[|s| - 1] !in s[..|s| - 1]
    ensures InFirstOccurrenceOrder(r + [s[|s| - 1]], s)
  {
    var last := s[|s| - 1];
    FirstIndexOfNewLast(s);
    var r' := r + [last];
    forall k | 0 <= k < |r'| ensures r'[k] in s {
      if k < |r| {
        assert r'[k] == r[k];
      }
    }
    forall i, j | 0 <= i < j < |r'| ensures FirstIndex(s, r'[i]) < FirstIndex(s, r'[j]) {
      assert r'[i] == r[i];
      if j < |r| {
        assert r'[j] == r[j];
      }
    }
  }

  /** First-occurrence order carries over: a list ordered against `m`, itself
      ordered against `s`, is ordered against `s`. */
  lemma OrderThrough<T>(r: seq<T>, m: seq<T>, s: seq<T>)
    requires InFirstOccurrenceOrder(r, m) && InFirstOccurrenceOrder(m, s)
    ensures InFirstOccurrenceOrder(r, s)
  {
    forall k | 0 <= k < |r| ensures r[k] in s {
      var i := FirstIndex(m, r[k]);
      assert m[i] in s;
    }
    forall i, j | 0 <= i < j < |r| ensures FirstIndex(s, r[i]) < FirstIndex(s, r[j]) {
      var pi, pj := FirstIndex(m, r[i]), FirstIndex(m, r[j]);
      assert m[pi] == r[i] && m[pj] == r[j];
    }
  }

  /** De-duplication lists the elements in the order of their first occurrence. */
  lemma {:induction false} DedupOrder<T(!new)>(s: seq<T>)
    ensures InFirstOccurrenceOrder(Dedup(s), s)
    decreases |s|
  {
    if |s| > 0 {
      var n := |s| - 1;
      var init := Dedup(s[..n]);
      DedupOrder(s[..n]);
      OrderInPrefix(s, n, init);
      if s[n] !in init {
        OrderAppendNew(s, init);
      }
    }
  }

  /** Among duplicate-free sequences listing exactly the elements of `s`, the
      first-occurrence order leaves only one: the result of `Dedup`. */
  lemma {:induction false} DedupUnique<T(!new)>(s: seq<T>, r: seq<T>)
    requires NoDup(r)
    requires forall x :: x in r <==> x in s
    requires InFirstOccurrenceOrder(r, s)
    ensures r == Dedup(s)
    decreases |s|
  {
    DedupOrder(s);
    SortedByKeyUnique(s, r, Dedup(s));
  }

  lemma TailMembers<T(!new)>(a: seq<T>)
    requires NoDup(a) && |a| > 0
    ensures forall x :: x in a[1..] <==> x in a && x != a[0]
  {
    forall x | x in a[1..] ensures x != a[0] {
      var k :| 0 <= k < |a| - 1 && a[1..][k] == x;
      assert a[k + 1] == x;
    }
    assert a == [a[0]] + a[1..];
  }

  /** The head of a sequence in first-occurrence order has the least first index. */
  lemma HeadIsLeast<T(!new)>(s: seq<T>, a: seq<T>)
    requires |a| > 0 && InFirstOccurrenceOrder(a, s)
    ensures forall x :: x in a ==> FirstIndex(s, a[0]) <= FirstIndex(s, x)
  {
    forall x | x in a ensures FirstIndex(s, a[0]) <= FirstIndex(s, x) {
      var k :| 0 <= k < |a| && a[k] == x;
      if k > 0 {
        assert FirstIndex(s, a[0]) < FirstIndex(s, a[k]);
      }
    }
  }

  /** Two duplicate-free sequences with the same elements, both ordered by
      first occurrence in `s`, are equal. */
  lemma {:induction false} SortedByKeyUnique<T(!new)>(s: seq<T>, a: seq<T>, b: seq<T>)
    requires NoDup(a) && NoDup(b)
    requires forall x :: x in a <==> x in b
    requires InFirstOccurrenceOrder(a, s) && InFirstOccurrenceOrder(b, s)
    ensures a == b
    decreases |a|
  {
    assert |a| > 0 ==> a[0] in b;
    assert |b| > 0 ==> b[0] in a;
    if |a| > 0 {
      // Each head has the least first index of the common elements, so they coincide.
      HeadIsLeast(s, a);
      HeadIsLeast(s, b);
      assert s[FirstIndex(s, a[0])] == a[0];
      assert s[FirstIndex(s, b[0])] == b[0];
      assert a[0] == b[0];
      TailMembers(a);
      TailMembers(b);
      SortedByKeyUnique(s, a[1..], b[1..]);
      assert a == [a[0]] + a[1..];
      assert b == [b[0]] + b[1..];
    }
  }
}

=== FILE: text.dfy ===
/** String operations with the exact semantics of Python's `str.split(sep)`,
    `str.strip()` and `str.replace(old, new)`, as the scripts use them. */
module Text {

  /** Python's `str.isspace` for a single character: the ASCII whitespace and
      separator controls, plus the Unicode space separators. */
  predicate IsSpace(c: char) {
    var n := c as int;
    n == 0x20 || (0x09 <= n <= 0x0D) || (0x1C <= n <= 0x1F) || n == 0x85 || n == 0xA0
    || n == 0x1680 || (0x2000 <= n <= 0x200A) || n == 0x2028 || n == 0x2029
    || n == 0x202F || n == 0x205F || n == 0x3000
  }

  predicate AllSpace(s: string) {
    forall k :: 0 <= k < |s| ==> IsSpace(s[k])
  }

  /** Position of the first occurrence of `c` in `s`. */
  function IndexOf(s: string, c: char): (i: nat)
    requires c in s
    ensures i < |s| && s[i] == c && c !in s[..i]
  {
    IndexFrom(s, c, 0)
  }

  /** The first position at or after `k` holding `c`, when none before `k` does. */
  function IndexFrom(s: string, c: char, k: nat): (i: nat)
    requires k <= |s| && c in s[k..] && c !in s[..k]
    ensures k <= i < |s| && s[i] == c && c !in s[..i]
    decreases |s| - k
  {
    if s[k] == c then k
    else
      assert s[k..] == [s[k]] + s[k + 1..];
      assert s[..k + 1] == s[..k] + [s[k]];
      IndexFrom(s, c, k + 1)
  }

  // ---------------------------------------------------------------- split / join

  /** Python's `s.split(sep)` with an explicit one-character separator: every
      separator cuts, so adjacent separators give empty pieces and the empty
      string gives one empty piece. */
  function Split(s: string, sep: char): (parts: seq<string>)
    ensures |parts| >= 1
    ensures forall p :: p in parts ==> sep !in p
    decreases |s|
  {
    if sep !in s then [s]
    else
      var i := IndexOf(s, sep);
      [s[..i]] + Split(s[i + 1..], sep)
  }

  /** Python's `sep.join(parts)`. */
  function Join(parts: seq<string>, sep: char): string
    requires |parts| >= 1
  {
    if |parts| == 1 then parts[0] else parts[0] + [sep] + Join(parts[1..], sep)
  }

  /** Joining the pieces of a split gives back the original string. */
  lemma {:induction false} JoinSplit(s: string, sep: char)
    ensures Join(Split(s, sep), sep) == s
    decreases |s|
  {
    if sep in s {
      var i := IndexOf(s, sep);
      var rest := s[i + 1..];
      JoinSplit(rest, sep);
      var parts, tail := Split(s, sep), Split(rest, sep);
      assert parts == [s[..i]] + tail;
      assert parts[0] == s[..i] && parts[1..] == tail;
      assert Join(parts, sep) == s[..i] + [sep] + Join(tail, sep);
      assert s == s[..i] + [sep] + rest;
    } else {
      assert Split(s, sep) == [s];
    }
  }

  /** Splitting `x + sep + y` where `x` holds no separator cuts exactly after `x`. */
  lemma SplitAfterPiece(x: string, sep: char, y: string)
    requires sep !in x
    ensures Split(x + [sep] + y, sep) == [x] + Split(y, sep)
  {
    var s := x + [sep] + y;
    assert s[|x|] == sep;
    assert s[..|x|] == x;
    var i := IndexOf(s, sep);
    assert i == |x|;
    assert s[..i] == x;
    assert s[i + 1..] == y;
  }

  /** Splitting a join of separator-free pieces gives back the pieces. */
  lemma {:induction false} SplitJoin(parts: seq<string>, sep: char)
    requires |parts| >= 1
    requires forall p :: p in parts ==> sep !in p
    ensures Split(Join(parts, sep), sep) == parts
    decreases |parts|
  {
    if |parts| == 1 {
      assert parts[0] in parts;
    } else {
      assert parts[0] in parts;
      assert forall p :: p in parts[1..] ==> p in parts;
      var rest := Join(parts[1..], sep);
      SplitJoin(parts[1..], sep);
      SplitAfterPiece(parts[0], sep, rest);
      assert Join(parts, sep) == parts[0] + [sep] + rest;
      assert parts == [parts[0]] + parts[1..];
    }
  }

  /** `s.split(sep)[-1]`. */
  function LastPiece(s: string, sep: char): string {
    var parts := Split(s, sep);
    parts[|parts| - 1]
  }

  /** The last piece of `s` is the last piece of what follows its first separator. */
  lemma LastPieceStep(s: string, sep: char)
    requires sep in s
    ensures LastPiece(s, sep) == LastPiece(s[IndexOf(s, sep) + 1..], sep)
  {
    var i := IndexOf(s, sep);
    var tail := Split(s[i + 1..], sep);
    assert Split(s, sep) == [s[..i]] + tail;
    LastOfCons(s[..i], tail);
  }

  lemma LastOfCons(x: string, t: seq<string>)
    requires |t| > 0
    ensures ([x] + t)[|t|] == t[|t| - 1]
  {
  }

  /** The last piece of a split is a separator-free suffix of the string, and
      the character in front of it (if any) is the separator. */
  lemma {:induction false} LastPieceIsSuffix(s: string, sep: char)
    ensures var last := LastPiece(s, sep);
            && |last| <= |s| && last == s[|s| - |last|..]
            && (|last| < |s| ==> s[|s| - |last| - 1] == sep)
    decreases |s|
  {
    if sep in s {
      var i := IndexOf(s, sep);
      var rest := s[i + 1..];
      LastPieceIsSuffix(rest, sep);
      LastPieceStep(s, sep);
      var last := LastPiece(rest, sep);
      SuffixOfSuffix(s, i + 1, |last|);
      if |last| == |rest| {
        assert s[|s| - |last| - 1] == s[i];
      }
    } else {
      assert Split(s, sep) == [s];
      assert s[|s| - |s|..] == s;
    }
  }

  /** A suffix of a suffix of `s` is a suffix of `s`, and the character in
      front of it is the same. */
  lemma SuffixOfSuffix(s: string, j: nat, m: nat)
    requires j <= |s| && m <= |s| - j
    ensures s[j..][|s| - j - m..] == s[|s| - m..]
    ensures m < |s| - j ==> s[j..][|s| - j - m - 1] == s[|s| - m - 1]
  {
  }

  /** Python's `name.split('/')[-1]`: the last path segment. */
  function LastSegment(name: string): (seg: string)
    ensures '/' !in seg
    ensures |seg| <= |name| && seg == name[|name| - |seg|..]
    ensures |seg| < |name| ==> name[|name| - |seg| - 1] == '/'
  {
    var parts := Split(name, '/');
    LastPieceIsSuffix(name, '/');
    assert parts[|parts| - 1] in parts;
    LastPiece(name, '/')
  }

  // ---------------------------------------------------------------- strip

  lemma AllSpaceCons(c: char, t: string)
    requires IsSpace(c) && AllSpace(t)
    ensures AllSpace([c] + t)
  {
    forall k | 0 < k <= |t| ensures IsSpace(([c] + t)[k]) {
      assert ([c] + t)[k] == t[k - 1];
    }
  }

  /** Python's `s.lstrip()`. */
  function StripLeft(s: string): (r: string)
    ensures |r| <= |s| && r == s[|s| - |r|..]
    ensures AllSpace(s[..|s| - |r|])
    ensures |r| > 0 ==> !IsSpace(r[0])
  {
    if |s| > 0 && IsSpace(s[0]) then
      var r := StripLeft(s[1..]);
      var n := |s| - |r|;
      assert s[1..][n - 1..] == s[n..];
      assert s[..n] == [s[0]] + s[1..][..n - 1];
      AllSpaceCons(s[0], s[1..][..n - 1]);
      r
    else s
  }

  /** Python's `s.rstrip()`. */
  function StripRight(s: string): (r: string)
    ensures |r| <= |s| && r == s[..|r|]
    ensures AllSpace(s[|r|..])
    ensures |r| > 0 ==> !IsSpace(r[|r| - 1])
  {
    if |s| > 0 && IsSpace(s[|s| - 1]) then
      var init := s[..|s| - 1];
      var r := StripRight(init);
      assert init[..|r|] == s[..|r|];
      forall k | 0 <= k < |s| - |r| ensures IsSpace(s[|r|..][k]) {
        if k < |s| - 1 - |r| {
          assert s[|r|..][k] == init[|r|..][k];
        }
      }
      r
    else s
  }

  /** Python's `s.strip()`. */
  function Strip(s: string): (r: string)
    ensures forall c :: c in r ==> c in s
    ensures |r| > 0 ==> !IsSpace(r[0]) && !IsSpace(r[|r| - 1])
  {
    var left := StripLeft(s);
    var r := StripRight(left);
    assert forall c :: c in r ==> c in left;
    assert forall c :: c in left ==> c in s;
    r
  }

  /** Non-empty, with no whitespace at either end: the shape of a stripped token. */
  predicate Unpadded(t: string) {
    t != "" && !IsSpace(t[0]) && !IsSpace(t[|t| - 1])
  }

  /** A string with no whitespace at either end is its own strip. */
  lemma StripUnpadded(s: string)
    requires Unpadded(s)
    ensures Strip(s) == s
  {
  }

  lemma StripLeftEmptyIff(s: string)
    ensures StripLeft(s) == "" <==> AllSpace(s)
  {
    var left := StripLeft(s);
    if left == "" {
      assert s[..|s|] == s;
    } else {
      assert left[0] == s[|s| - |left|];
      assert !IsSpace(s[|s| - |left|]);
    }
  }

  lemma StripRightEmptyIff(s: string)
    ensures StripRight(s) == "" <==> AllSpace(s)
  {
    var right := StripRight(s);
    if right == "" {
      assert s[0..] == s;
    } else {
      assert right[|right| - 1] == s[|right| - 1];
      assert !IsSpace(s[|right| - 1]);
    }
  }

  /** Stripping yields the empty string exactly when the string is all whitespace. */
  lemma StripEmptyIffAllSpace(s: string)
    ensures Strip(s) == "" <==> AllSpace(s)
  {
    var left := StripLeft(s);
    StripLeftEmptyIff(s);
    StripRightEmptyIff(left);
    if left != "" {
      assert !IsSpace(left[0]);
    }
  }

  // ---------------------------------------------------------------- replace

  /** `p` occurs in `s` starting at position `i`. */
  predicate OccursAt(s: string, p: string, i: nat) {
    i + |p| <= |s| && s[i..i + |p|] == p
  }

  /** Python's `s.replace(old, new)`: every non-overlapping occurrence of `old`,
      scanning left to right, is replaced by `new`. */
  function Replace(s: string, pat: string, sub: string): string
    requires |pat| > 0
    decreases |s|
  {
    if |s| < |pat| then s
    else if s[..|pat|] == pat then sub + Replace(s[|pat|..], pat, sub)
    else [s[0]] + Replace(s[1..], pat, sub)
  }

  /** A string in which `pat` never occurs is left unchanged. */
  lemma {:induction false} ReplaceAbsent(s: string, pat: string, sub: string)
    requires |pat| > 0
    requires forall i: nat :: !OccursAt(s, pat, i)
    ensures Replace(s, pat, sub) == s
    decreases |s|
  {
    if |s| >= |pat| {
      assert !OccursAt(s, pat, 0);
      assert s[..|pat|] != pat;
      forall i: nat ensures !OccursAt(s[1..], pat, i) {
        assert !OccursAt(s, pat, i + 1);
        if i + |pat| <= |s| - 1 {
          assert s[1..][i..i + |pat|] == s[i + 1..i + 1 + |pat|];
        }
      }
      ReplaceAbsent(s[1..], pat, sub);
    }
  }

  /** A leading occurrence of `old` is replaced. */
  lemma ReplaceLeading(pat: string, sub: string, rest: string)
    requires |pat| > 0
    ensures Replace(pat + rest, pat, sub) == sub + Replace(rest, pat, sub)
  {
    assert (pat + rest)[..|pat|] == pat;
    assert (pat + rest)[|pat|..] == rest;
  }
}

=== FILE: wrappers.dfy ===
/** Failure-carrying datatypes shared by every module of the model. */
module Wrappers {

  /** A value that may be absent: a missing JSON field, a lookup miss, a parse that fails. */
  datatype Option<+T> = None | Some(value: T)

  /** The outcome of a step that can end the run with an error. */
  datatype Result<+T, +E> = Ok(value: T) | Err(error: E)
}
